=== FILE: README.md ===
# PortWatchPro core in Dafny

PortWatchPro (`port_monitor_2.py`) is a desktop monitor of the host's TCP and
UDP ports. For a user-chosen port range it shows one row per protocol and port.
A row is either the live binding found by the host scan or a synthetic `FREE`
row. Each row is annotated with the Docker container that publishes that host
port, if there is one.

This project models the logic behind that table as pure Dafny functions and
proves properties of it:

- `HostScan` (`host_scan.dfy`) turns the host's connections into port records.
  It covers the psutil connection list, the Windows `netstat -ano` parser, the
  `lsof -nP -i` parser, and the choice between them (`collect_used_ports`).
- `DockerScan` (`docker_scan.dfy`) builds the container index, a map from
  (protocol, host port) to the publications on that key, in the order they were
  filed. It covers the Docker SDK's `"80/tcp"` port keys, the CLI's `Ports`
  field (`0.0.0.0:8080->80/tcp, :::8080->80/tcp`), and the SDK-then-CLI
  strategy (`collect_docker_ports`).
- `Reconcile` (`reconcile.dfy`) builds the range view (`_build_range_view`) in
  four steps:
  - a first-wins deduplication of the scan by (upper-cased protocol, port);
  - a sweep of TCP, then UDP, over the range, with FREE rows unless "only used"
    is set;
  - container enrichment with the UDP-to-TCP fallback and the ` (+n)` count
    suffix (`_enrich_with_docker`);
  - the "only Docker" filter.
- `Display` (`display.dfy`) is the table's Docker column text.
- `Records` (`records.dfy`) holds the two dataclasses, the index key, `is_free`
  and the process-name lookup.
- `Text`, `Collections` and `Wrappers` are string, sequence and option helpers.
  They implement the Python built-ins the code relies on: `split`, `rsplit`,
  `strip`, `re.split(r"\s+")`, `int()`, `str()`, `upper()`, `lower()` and `in`.
- `Scenarios` (`scenarios.dfy`) states concrete tables, lines and columns as
  lemmas.

Every outside effect is a parameter:
- the psutil connection list, or `None` when the call raises;
- the netstat/lsof output lines, or `None` when the subprocess fails;
- the process-name lookup `int -> Option<string>` (`psutil.Process(pid).name()`), which the scan consults only when psutil is installed;
- whether psutil and the Docker SDK are installed;
- the SDK's container listing, or the publications filed before it raised;
- whether `docker version` succeeds;
- the decoded `docker ps` JSON lines.

## Model

| member | source | states |
|---|---|---|
| Records.IsFree | port_monitor_2.py:76-78 | a row is free iff its status is `FREE` in any letter case: the status has four letters and lower-cases to `free` |
| Records.FreeRecord | port_monitor_2.py:636-639 | a synthetic row is free by `is_free`, has no pid, process or remote address, has local address `*:port`, and has no container fields |
| Records.ProcessName | port_monitor_2.py:92-100 | no name for a missing or zero pid; the looked-up name when the lookup succeeds; `PID n` when it fails |
| Records.ProcessNamePlaceholder | port_monitor_2.py:98-100 | the fallback name starts with `PID ` and its digits read back as the pid |
| HostScan.PsutilRecord | port_monitor_2.py:110-126 | a connection yields a row iff it has a local address; the port is the local port; the protocol is TCP for stream sockets and UDP otherwise; the status is kept, or LISTEN for a status-less UDP socket; a pid is kept only when positive; the process name comes from the lookup; addresses are `ip:port` |
| HostScan.PsutilRecords | port_monitor_2.py:103-127 | a failed enumeration gives no rows; every row comes from one connection and every connection with a local address gives its row; there are never more rows than connections; the list is empty iff no connection has a local address; a single connection gives exactly its own row or none |
| HostScan.PsutilRecordsAppend | port_monitor_2.py:110-127 | rows keep the connections' order: a listing's rows are its first part's rows followed by the rest's |
| HostScan.PsutilLocalAddrPort | port_monitor_2.py:111-119 | the port after the last `:` of the local address is the row's port |
| HostScan.ParseNetstatLine | port_monitor_2.py:135-164 | a line gives a row iff, once stripped, it starts with TCP or UDP, has at least four whitespace columns, and has a number after the last `:` of the local column; the row's port is that number, its protocol the first column upper-cased, its state the fourth column for TCP and empty otherwise, its pid the last column read as a number only when there are five or more columns, its process the name looked up for that pid, its addresses the second and third columns, and it has no container |
| HostScan.NetstatColumnsRoundTrip | port_monitor_2.py:136-164 | for space-joined columns the row carries the upper-cased protocol, the local and remote columns and the port; the state only for TCP; the pid from the last column only when there are five or more |
| HostScan.ParseNetstat | port_monitor_2.py:135-164 | every row comes from one line of the output and every accepted line gives its row; there are never more rows than lines; a single line gives exactly its own row or none |
| HostScan.ParseNetstatAppend | port_monitor_2.py:135-164 | rows keep the lines' order: an output's rows are its first lines' rows followed by the rest's |
| HostScan.ColonNumber | port_monitor_2.py:181-184 | there is no port iff no `:` is followed by a digit; otherwise the port is the value of the whole run of digits after the first `:` that is followed by a digit |
| HostScan.ColonNumberAfterHost | port_monitor_2.py:181-184 | in `host:port rest`, with no `:` in the host and no digit after the port, the number read is the port |
| HostScan.Keyword | port_monitor_2.py:179-180 | the keyword test behind the protocol (TCP, UDP, else `?`) and the state (LISTEN, ESTABLISHED, else empty): the first word iff the text contains it, the second iff it contains the second but not the first, the fallback iff it contains neither |
| HostScan.ParseLsofLineWith | port_monitor_2.py:167-195 | a line gives a row iff it is non-blank, splits into nine columns (NAME keeps its spaces), and its NAME holds `:digits`; the row's command, pid, port, state and local address come from the named columns |
| HostScan.LsofColumnsRoundTrip | port_monitor_2.py:170-195 | on eight columns and a NAME, both parsers read the same row except for the protocol, which comes from NAME as written and from NODE once corrected |
| HostScan.ParseLsofLineAsWritten | port_monitor_2.py:167-195 | as written, a row's protocol, port and state are all read from its local address, the NAME column |
| HostScan.ParseLsofLine | port_monitor_2.py:167-195 | reading the protocol from the NODE column keeps exactly the same lines and changes only the protocol, which becomes TCP, UDP or `?` by the NODE column |
| HostScan.ParseLsofWith | port_monitor_2.py:166-195 | the header line is skipped; every row comes from one later line and every later line the line parser accepts gives its row; never more rows than lines; a header and one line give exactly that line's row or none |
| HostScan.ParseLsofWithAppend | port_monitor_2.py:166-195 | rows keep the data lines' order: under one header, the rows of `a` then `b` are `a`'s rows followed by `b`'s |
| HostScan.ParseLsof | port_monitor_2.py:166-195 | as written: the header line is skipped; every row comes from one later line and every accepted later line gives its row; each row's protocol is read from its own address; a header and one line give exactly that line's row or none |
| HostScan.ParseLsofAppend | port_monitor_2.py:166-195 | as written, rows keep the data lines' order |
| HostScan.ParseLsofCorrected | port_monitor_2.py:166-195 | the same, with the protocol read from the NODE column |
| HostScan.ParseLsofCorrectedAppend | port_monitor_2.py:166-195 | corrected, rows keep the data lines' order |
| HostScan.NetstatRecordsWith | port_monitor_2.py:130-198 | a failed subprocess gives no rows; Windows uses the netstat parser and every other system uses the lsof parser |
| HostScan.NetstatRecords | port_monitor_2.py:130-198 | the same, with the lsof parser as written |
| HostScan.NetstatRecordsCorrected | port_monitor_2.py:130-198 | the same, with the corrected lsof parser |
| HostScan.CollectUsedPorts | port_monitor_2.py:201-206 | the psutil rows win when psutil is present and found something; otherwise the fallback's rows; the result is empty iff both are |
| HostScan.ProcessLookup | port_monitor_2.py:92-100 | `_safe_proc_name` looks names up through psutil only when it is installed; otherwise no pid has a name |
| HostScan.NetstatWithoutPsutil | port_monitor_2.py:92-100 | without psutil every netstat row with a pid is named `PID n` |
| HostScan.ScanHostWith | port_monitor_2.py:92-206 | the host scan is psutil's rows when psutil is installed and reports a connection with a local address, and the fallback command's rows otherwise; the fallback looks process names up only when psutil is installed, so without it every netstat row with a pid is named `PID n` |
| HostScan.ScanHost | port_monitor_2.py:92-206 | the same, as written, with the lsof parser reading the protocol from NAME |
| HostScan.ScanHostCorrected | port_monitor_2.py:92-206 | with the corrected lsof parser the scan is unchanged unless the lsof fallback is used, and then it is the corrected lsof rows |
| DockerScan.IndexAppend | port_monitor_2.py:258 | filing a publication adds its key and appends it to that key's list; other keys are untouched |
| DockerScan.IndexAllEntries | port_monitor_2.py:258 | filing a list of publications appends, on each key, exactly the ones with that key, in order |
| DockerScan.BuildIndex | port_monitor_2.py:258 | each key's list is the publications with that key, in filing order; no key has an empty list; every publication's key is present |
| DockerScan.ParsePortKey | port_monitor_2.py:235-240 | a key is accepted only when it splits on `/` into exactly two parts and the first is a number; the protocol is the upper-cased second part |
| DockerScan.PortKeyRoundTrip | port_monitor_2.py:235-240 | `cport/proto` reads back as the port and the upper-cased protocol |
| DockerScan.SdkImageName | port_monitor_2.py:228-233 | the image is empty when reading it raises; otherwise it is one of its tags or its short id, the first tag whenever there is one |
| DockerScan.SdkEntryInfos | port_monitor_2.py:234-258 | an unreadable key files nothing; each filed publication comes from one binding whose host port is a number, and under a readable key every such binding files its publication; a single binding files exactly its own publication or none |
| DockerScan.SdkEntryInfosAppend | port_monitor_2.py:243-258 | publications keep the bindings' order: under one key, the bindings `a` then `b` file `a`'s publications followed by `b`'s |
| DockerScan.SdkPortsInfos | port_monitor_2.py:234-258 | every publication of a container comes from one of its port entries, and every entry files all of its publications |
| DockerScan.SdkInfos | port_monitor_2.py:224-258 | every SDK publication comes from one listed container, and every container files all of its publications |
| DockerScan.SdkInfosAppend | port_monitor_2.py:224-258 | publications keep the listing order: more entries, or more containers, append their publications behind the earlier ones |
| DockerScan.SdkInfosShape | port_monitor_2.py:224-258 | every SDK publication carries its container's name and the first 12 characters of its id, with an upper-case protocol |
| DockerScan.SdkPortsShape | port_monitor_2.py:236-258 | a container's publication carries its name, the first 12 characters of its id and an upper-case protocol |
| DockerScan.SplitArrow | port_monitor_2.py:279-281 | a clause without `->` is skipped; otherwise it is split at its first `->` |
| DockerScan.ParseHostSide | port_monitor_2.py:287-291 | the host port is the number after the last `:`; the host IP is what precedes that `:`, or empty without one |
| DockerScan.ParseClause | port_monitor_2.py:279-291 | a clause is read iff it has `->`, a `/` after a numeric container port, and a numeric host port; the protocol is upper-case |
| DockerScan.ClauseRoundTrip | port_monitor_2.py:279-291 | `ip:hport->cport/proto` reads back as the same clause with the protocol upper-cased |
| DockerScan.ParsePorts | port_monitor_2.py:277-291 | every clause read comes from one non-blank comma-separated piece |
| DockerScan.SiblingClausesIndependent | port_monitor_2.py:278 | the clauses of `x,y` are those of `x` followed by those of `y` |
| DockerScan.PortsRoundTrip | port_monitor_2.py:277-291 | a Ports field printed as `docker ps` prints it, clauses joined by `, `, reads back as its clauses in order with their protocols upper-cased |
| DockerScan.CliRowInfos | port_monitor_2.py:274-301 | one `docker ps` line gives one publication per readable clause, in clause order, with the line's id, name and image |
| DockerScan.CliInfos | port_monitor_2.py:266-303 | every CLI publication comes from a decoded line's clauses; a single decoded line gives its clauses' publications and a single skipped or malformed line gives none |
| DockerScan.CliInfosComplete | port_monitor_2.py:266-303 | every decoded line before the first malformed one files all of its publications |
| DockerScan.CliInfosAppend | port_monitor_2.py:266-301 | publications keep the line order: lines with no malformed one among them file theirs before the later lines' |
| DockerScan.MalformedLineEndsPass | port_monitor_2.py:264-303 | a line whose fields cannot be read (not a JSON object, a truthy `ID` that cannot be sliced, or a truthy `Ports` with no `split`) ends the `docker ps` pass: later lines file nothing and earlier lines keep what they filed |
| DockerScan.CollectDockerPorts | port_monitor_2.py:218-305 | a complete SDK listing alone makes the index; otherwise each key holds what the SDK filed before failing, then what `docker ps` filed when the CLI answers |
| DockerScan.FallbackIndex | port_monitor_2.py:259-305 | after an incomplete SDK pass, each key holds the SDK's publications, then the CLI's when the CLI answers, and only the SDK's otherwise |
| DockerScan.SdkListingIsFinal | port_monitor_2.py:219-259 | after a complete SDK listing the CLI is never consulted, even when the listing is empty |
| DockerScan.NoCliKeepsOnlyPartial | port_monitor_2.py:218-305 | without a complete SDK listing or a working CLI, the index holds only what the SDK filed before failing |
| DockerScan.SdkFailureKeepsPartial | port_monitor_2.py:218-305 | after an SDK failure, the publications filed before it stay first on their key and the CLI's follow |
| Reconcile.FirstWith | port_monitor_2.py:624-627 | the reference first-wins choice: the earliest scanned record with the key, or none when no record has it |
| Reconcile.Dedup | port_monitor_2.py:623-627 | the deduplicated map files each record under its own key; every scanned key is present; every stored record was scanned |
| Reconcile.DedupFirstWins | port_monitor_2.py:623-627 | the deduplicated map agrees with the first-wins reference on every key, both presence and value |
| Reconcile.Sweep | port_monitor_2.py:629-639 | one protocol's sweep has exactly one row per port without "only used", and never more |
| Reconcile.SweepLayout | port_monitor_2.py:629-639 | without "only used", row i is port `lo + i`: the scanned binding or a FREE row |
| Reconcile.SweepComplete | port_monitor_2.py:630-633 | every scanned binding in the range appears in the sweep, with or without "only used" |
| Reconcile.SweepSound | port_monitor_2.py:629-639 | every swept row is the binding or FREE row of some port in the range |
| Reconcile.Rows | port_monitor_2.py:628-639 | the unfiltered sweep has exactly two rows per port without "only used", and never more |
| Reconcile.LookupBuiltIndex | port_monitor_2.py:606-609 | over an index built from a publication list, a row matches the publications on its key in filing order, or on TCP for a UDP row with none |
| Reconcile.Lookup | port_monitor_2.py:607-609 | a row matches the publications on its own key; a UDP row with none falls back to TCP on the same port |
| Reconcile.CountSuffix | port_monitor_2.py:616-617 | a single publication adds nothing; `n` publications add ` (+…)` whose digits read back as `n - 1` |
| Reconcile.EnrichRecord | port_monitor_2.py:605-618 | enrichment never changes the binding or its key; an unmatched row is unchanged; a matched row takes the first publication's id, image, container port and name, the name followed by ` (+n)` for n further publications |
| Reconcile.EnrichIdempotent | port_monitor_2.py:610-617 | enriching twice with the same index gives the same row, because the name is reset before the suffix is added |
| Reconcile.Enrich | port_monitor_2.py:605-618 | enrichment keeps the number of rows and enriches each row on its own, by position |
| Reconcile.RangeView | port_monitor_2.py:620-643 | with "only Docker" every row has a container; without filters there are exactly two rows per port; there are never more |
| Reconcile.RangeViewSymmetric | port_monitor_2.py:621-622 | swapping the two range bounds gives the same table |
| Reconcile.RowsLayout | port_monitor_2.py:628-639 | before enrichment and without filters, there are two rows per port, row i being TCP port `start + i` and row `n + i` UDP port `start + i` |
| Reconcile.RangeViewLayout | port_monitor_2.py:620-643 | without filters the first half is TCP and the second half UDP, in port order, from the lower bound |
| Reconcile.RowsOrdered | port_monitor_2.py:628-639 | the swept rows are TCP or UDP bindings in the range, TCP before UDP, then ascending port |
| Reconcile.EnrichKeepsOrder | port_monitor_2.py:640 | enrichment keeps rows in the range and keeps their order |
| Reconcile.RangeViewOrdered | port_monitor_2.py:620-643 | every shown row is in the range, and rows are ordered TCP before UDP, then by port, under every filter |
| Reconcile.RangeViewShowsBindings | port_monitor_2.py:620-640 | every scanned TCP/UDP binding in the range is shown, enriched, through the first record scanned on its key |
| Reconcile.OnlyDockerSubsequence | port_monitor_2.py:641-642 | "only Docker" keeps exactly the rows with a container, in the unfiltered order |
| Display.CportText | port_monitor_2.py:346 | the container port shows as `?` iff it is unknown or zero, and otherwise reads back as the port |
| Display.DockerColumn | port_monitor_2.py:344-348 | the column is empty iff the row has no container; otherwise it starts with the whale, the name and `port->`, and ends with `)` or `) @ image` |
| Display.EnrichedDockerColumn | port_monitor_2.py:344-347 | a matched row's column shows the first publication's name with the count, the row's port, that publication's container port, the lower-case protocol and the image |
| Scenarios.EndToEndRange | port_monitor_2.py:620-643 | sshd on TCP 22 over range 20-25 gives twelve rows: TCP 20-25 with sshd at 22, then six FREE UDP rows |
| Scenarios.BackwardsRange | port_monitor_2.py:621-622 | entering the range backwards gives the same table |
| Scenarios.SingleMapping | port_monitor_2.py:610-615 | one publication names the row without a suffix and gives container port 80 |
| Scenarios.MappingCollision | port_monitor_2.py:616-617 | two publications on one key name the row `web (+1)` |
| Scenarios.NamedWithOneMore | port_monitor_2.py:616-617 | a row matched with two publications takes the first one's name followed by ` (+1)` |
| Scenarios.UdpFallsBackToTcp | port_monitor_2.py:607-609 | a UDP row with only a TCP publication on its port takes that container |
| Scenarios.FirstBindingWins | port_monitor_2.py:624-627 | of two bindings on TCP 443, only the first scanned is shown |
| Scenarios.WebColumn | port_monitor_2.py:344-347 | the column reads `🐳 web (8080->80/tcp) @ nginx:latest` |
| Scenarios.NetstatTcpLine | port_monitor_2.py:135-164 | `TCP 0.0.0.0:135 0.0.0.0:0 LISTENING 1234` gives port 135, state LISTENING, pid 1234 |
| Scenarios.NetstatTcpWithoutPsutil | port_monitor_2.py:92-100 | without psutil the scan of `TCP 0.0.0.0:135 0.0.0.0:0 LISTENING 1234` is one row, port 135, process `PID 1234`, whatever a lookup would give |
| Scenarios.NetstatUdpLineLosesPid | port_monitor_2.py:144-150 | `UDP 0.0.0.0:5353 *:* 4321` gives port 5353 with no state, no pid and no process |
| Scenarios.LsofNameColumnMislabels | port_monitor_2.py:173-179 | a line whose NODE says TCP and whose NAME names no protocol is labelled `?` as written and TCP once corrected |
| Scenarios.LsofRowVisibility | port_monitor_2.py:173-179 | such a binding is missing from the table as written and shown once corrected |
| Scenarios.SshdLineMislabelled | port_monitor_2.py:173-179 | `sshd 100 root 3u IPv4 0x1 0t0 TCP *:22 (LISTEN)` meets those premises |
| Scenarios.DockerPsPorts | port_monitor_2.py:277-291 | `0.0.0.0:8080->80/tcp, :::8080->80/tcp` gives two TCP clauses, with host IPs `0.0.0.0` and `::` |
| Scenarios.SdkPortKey | port_monitor_2.py:235-238 | the SDK key `80/tcp` reads as port 80, TCP |

## Left out

- The Qt window is not modelled: the table model's other columns, colours, sorting, status-bar messages, timers, the port-range scanner, and the kill/stop/restart actions. None of it feeds the range view.
- Subprocess calls, psutil, the Docker SDK and JSON decoding are parameters. A `docker ps` line arrives already classified: a decoded row, a blank or undecodable line (`Skipped`), or a line whose fields cannot be read (`Malformed`, ending the pass).
- `DockerScan.CliRow`: a `Names` or `Image` field that is JSON but not text is taken as-is by the program; the model's row holds text only, so such values are not modelled.
- JSON values that are not text are not modelled beyond the line's classification. A falsy `ID`, `Names`, `Image` or `Ports` (`0`, `false`, `[]`, `{}`) reads as `""`, which the model's `CliRow` covers with an empty field. A non-empty JSON array `ID` is sliced to a list by `[:12]` and filed as such; the model's `CliRow` has no such value. A numeric SDK `HostPort` goes through `int()` like a string; the model's `SdkBind` carries it as its decimal text.
- `str.upper` and `str.lower` are modelled on ASCII letters only; non-ASCII case mappings are not modelled. Whitespace (`\s`, `strip()`) is the full set `str.isspace()` accepts.
- `int()` is modelled as accepting a non-empty run of ASCII digits only. Python also accepts a sign, surrounding whitespace, underscores and non-ASCII digits. The model rejects those, and the tool outputs parsed here print plain digits.
- Records are values here. The source mutates the rows in place. Those rows are the very objects of the host scan, so container fields from an earlier enrichment persist on a row that no longer matches. The model returns an unmatched row unchanged, which keeps whatever fields it came with, but it does not model the aliasing across refreshes.
- `HostScan.ColonNumber`: the lsof regex `:(\d+)` is modelled over ASCII digits only. Python's `\d` also matches other Unicode decimal digits, so `*:٢٢` is port 22 to the program and no port to the model, and `*:12٣` is 123 against the model's 12; lsof prints ASCII digits. Otherwise the regex is followed as written: it reads `[::1]:631` as port 1 (the first `:` followed by a digit). That is left as written, since it comes from the address format and not from the parser's logic.
- The spin boxes' own limits on the range are not modelled. The range view is defined for any two integers.
- SDK failure. The index is declared before the SDK's `try`, so when the SDK raises partway what was filed before the exception stays, and the CLI's publications are appended behind it. The model follows this: `DockerScan.CollectDockerPorts` takes `SdkFailed(partial)`.
- Windows UDP pid. A Windows UDP line has four columns, so its pid is never read (the `len(parts) >= 5` guard). This is modelled as written and shown by `Scenarios.NetstatUdpLineLosesPid`. It is not listed as a finding because it depends on netstat's output format rather than on a provable slip in the code.

## Findings

| source | as written | input that shows it | evidently intended | confidence | as-written member | corrected member |
|---|---|---|---|---|---|---|
| port_monitor_2.py:173-179 | the protocol is looked for in `name`, the NAME column (`TCP` / `UDP` in `name`) | `sshd 100 root 3u IPv4 0x1 0t0 TCP *:22 (LISTEN)`: NAME is `*:22 (LISTEN)`, so the row's protocol is `?` and the TCP/UDP sweep never shows it | look in `node`, the NODE column, where lsof prints TCP or UDP | not executed | HostScan.ParseLsofLineAsWritten, used by HostScan.ParseLsof, HostScan.NetstatRecords and HostScan.ScanHost; shown by Scenarios.LsofNameColumnMislabels and Scenarios.LsofRowVisibility | HostScan.ParseLsofLine, used by HostScan.ParseLsofCorrected, HostScan.NetstatRecordsCorrected and HostScan.ScanHostCorrected; proved by HostScan.LsofColumnsRoundTrip and Scenarios.LsofRowVisibility |

=== FILE: collections.dfy ===
/** Sequence combinators the scanner's list comprehensions and loops reduce
    to: keep-and-transform (`[f(x) for x in xs if ...]`) and keep
    (`[x for x in xs if p(x)]`). */
module Collections {
  import opened Wrappers

  /** Keeps the values `f` produces, in order, dropping the `None`s */
  function FilterMap<A(==), B(==)>(xs: seq<A>, f: A -> Option<B>): (r: seq<B>)
    ensures |r| <= |xs|
    ensures forall y :: y in r ==> exists x :: x in xs && f(x) == Some(y)
    ensures forall x :: x in xs && f(x).Some? ==> f(x).value in r
    decreases |xs|
  {
    if xs == [] then []
    else
      var rest := FilterMap(xs[1..], f);
      assert forall x :: x in xs[1..] ==> x in xs;
      assert forall x :: x in xs ==> x == xs[0] || x in xs[1..];
      match f(xs[0])
      case Some(y) => [y] + rest
      case None => rest
  }

  lemma {:induction false} FilterMapAppend<A, B>(a: seq<A>, b: seq<A>, f: A -> Option<B>)
    ensures FilterMap(a + b, f) == FilterMap(a, f) + FilterMap(b, f)
    decreases |a|
  {
    if a != [] {
      assert (a + b)[1..] == a[1..] + b;
      FilterMapAppend(a[1..], b, f);
    } else {
      assert a + b == b;
    }
  }

  /** The concatenated images of all elements, in order (a nested loop
      appending what each element yields) */
  function FlatMap<T, U>(xs: seq<T>, f: T -> seq<U>): (r: seq<U>)
    ensures forall y :: y in r ==> exists i :: 0 <= i < |xs| && y in f(xs[i])
    ensures forall i, y :: 0 <= i < |xs| && y in f(xs[i]) ==> y in r
    ensures |xs| == 1 ==> r == f(xs[0])
    decreases |xs|
  {
    if xs == [] then []
    else
      var rest := FlatMap(xs[1..], f);
      assert forall i :: 1 <= i < |xs| ==> xs[1..][i - 1] == xs[i];
      f(xs[0]) + rest
  }

  lemma {:induction false} FlatMapAppend<T, U>(a: seq<T>, b: seq<T>, f: T -> seq<U>)
    ensures FlatMap(a + b, f) == FlatMap(a, f) + FlatMap(b, f)
    decreases |a|
  {
    if a == [] {
      assert a + b == b;
    } else {
      assert (a + b)[1..] == a[1..] + b;
      assert (a + b)[0] == a[0];
      FlatMapAppend(a[1..], b, f);
    }
  }

  /** The concatenated images of the elements before the first one `stop`
      holds of (a loop over `xs` that a `stop` element breaks out of) */
  function FlatMapUntil<T, U>(xs: seq<T>, f: T -> seq<U>, stop: T -> bool): (r: seq<U>)
    ensures forall y :: y in r ==> exists i :: 0 <= i < |xs| && !stop(xs[i]) && y in f(xs[i])
    ensures |xs| == 1 ==> r == if stop(xs[0]) then [] else f(xs[0])
    decreases |xs|
  {
    if xs == [] || stop(xs[0]) then []
    else
      var rest := FlatMapUntil(xs[1..], f, stop);
      assert forall i :: 1 <= i < |xs| ==> xs[1..][i - 1] == xs[i];
      f(xs[0]) + rest
  }

  /** Every element before the first `stop` one contributes all of its image */
  lemma {:induction false} FlatMapUntilComplete<T, U>(xs: seq<T>, f: T -> seq<U>, stop: T -> bool, i: int, y: U)
    requires 0 <= i < |xs| && y in f(xs[i])
    requires forall j :: 0 <= j <= i ==> !stop(xs[j])
    ensures y in FlatMapUntil(xs, f, stop)
    decreases |xs|
  {
    if i > 0 {
      assert forall j :: 0 <= j <= i - 1 ==> xs[1..][j] == xs[j + 1];
      FlatMapUntilComplete(xs[1..], f, stop, i - 1, y);
      assert !stop(xs[0]);
    }
  }

  /** Elements that do not stop the loop contribute one after the other */
  lemma {:induction false} FlatMapUntilAppend<T, U>(a: seq<T>, b: seq<T>, f: T -> seq<U>, stop: T -> bool)
    requires forall j :: 0 <= j < |a| ==> !stop(a[j])
    ensures FlatMapUntil(a + b, f, stop) == FlatMapUntil(a, f, stop) + FlatMapUntil(b, f, stop)
    decreases |a|
  {
    if a == [] {
      assert a + b == b;
    } else {
      assert (a + b)[1..] == a[1..] + b;
      assert (a + b)[0] == a[0];
      FlatMapUntilAppend(a[1..], b, f, stop);
    }
  }

  /** A `stop` element ends the loop: nothing after it contributes */
  lemma {:induction false} FlatMapUntilStops<T, U>(a: seq<T>, x: T, b: seq<T>, f: T -> seq<U>, stop: T -> bool)
    requires forall j :: 0 <= j < |a| ==> !stop(a[j])
    requires stop(x)
    ensures FlatMapUntil(a + [x] + b, f, stop) == FlatMapUntil(a, f, stop)
  {
    FlatMapUntilAppend(a, [x] + b, f, stop);
    assert a + [x] + b == a + ([x] + b);
  }

  /** Keeps the elements satisfying `p`, in order */
  function Filter<T(==)>(xs: seq<T>, p: T -> bool): (r: seq<T>)
    ensures |r| <= |xs|
    ensures forall x :: x in r ==> x in xs && p(x)
    ensures forall x :: x in xs && p(x) ==> x in r
    decreases |xs|
  {
    if xs == [] then []
    else
      var rest := Filter(xs[1..], p);
      assert forall x :: x in xs ==> x == xs[0] || x in xs[1..];
      assert forall x :: x in xs[1..] ==> x in xs;
      if p(xs[0]) then [xs[0]] + rest else rest
  }

  /** `a` is `b` with some elements left out, the rest in the same order */
  ghost predicate IsSubsequence<T>(a: seq<T>, b: seq<T>)
    decreases |b|
  {
    if a == [] then true
    else if b == [] then false
    else (a[0] == b[0] && IsSubsequence(a[1..], b[1..])) || IsSubsequence(a, b[1..])
  }

  /** Filtering keeps the survivors in their original relative order */
  lemma {:induction false} FilterIsSubsequence<T>(xs: seq<T>, p: T -> bool)
    ensures IsSubsequence(Filter(xs, p), xs)
    decreases |xs|
  {
    if xs != [] {
      FilterIsSubsequence(xs[1..], p);
      var r := Filter(xs, p);
      if p(xs[0]) {
        assert r[1..] == Filter(xs[1..], p);
      }
    }
  }

  /** Filtering keeps a strictly ordered sequence ordered */
  lemma {:induction false} FilterOrdered<T>(xs: seq<T>, p: T -> bool, lt: (T, T) -> bool)
    requires forall i, j :: 0 <= i < j < |xs| ==> lt(xs[i], xs[j])
    ensures forall i, j :: 0 <= i < j < |Filter(xs, p)| ==> lt(Filter(xs, p)[i], Filter(xs, p)[j])
    decreases |xs|
  {
    if xs != [] {
      FilterOrdered(xs[1..], p, lt);
      var rest := Filter(xs[1..], p);
      var r := Filter(xs, p);
      if p(xs[0]) {
        assert r == [xs[0]] + rest;
        forall i, j | 0 <= i < j < |r| ensures lt(r[i], r[j]) {
          if i == 0 {
            var x := rest[j - 1];
            assert r[j] == x;
            assert x in xs[1..];
            var k :| 0 <= k < |xs[1..]| && xs[1..][k] == x;
            assert xs[k + 1] == x;
            assert lt(xs[0], xs[k + 1]);
          } else {
            assert r[i] == rest[i - 1] && r[j] == rest[j - 1];
          }
        }
      } else {
        assert r == rest;
      }
    }
  }
}

=== FILE: display.dfy ===
/** The table's Docker column: how an enriched row shows its container. */
module Display {
  import opened Wrappers
  import opened Text
  import opened Records
  import opened DockerScan
  import opened Reconcile

  /** The whale marker and the space after it */
  const Whale: string := "\U{1F433} "

  /** The container port as shown: `?` when unknown or zero */
  function CportText(cport: Option<int>): (s: string)
    ensures s == "?" <==> cport.None? || cport == Some(0)
    ensures cport.Some? && cport.value > 0 ==> ParseNat(s) == Some(cport.value)
  {
    if cport.None? || cport.value == 0 then "?"
    else
      var s := IntToString(cport.value);
      assert s[0] != '?' by {
        if cport.value > 0 {
          assert IsDigit(s[0]);
        }
      }
      assert cport.value > 0 ==> ParseNat(s) == Some(cport.value) by {
        if cport.value > 0 {
          ParseNatToString(cport.value);
        }
      }
      s
  }

  /** `" @ image"`, or nothing without an image */
  function ImageTail(image: string): string {
    if image != "" then " @ " + image else ""
  }

  /** The `Docker` column of `PortsTableModel.data`: empty for a row without a
      container, otherwise the marker, the container name and the
      `port->cport/proto` mapping, then the image if known */
  function DockerColumn(r: PortRecord): (s: string)
    ensures s == "" <==> r.dockerName == ""
    ensures r.dockerName != "" ==> StartsWith(s, Whale + r.dockerName + " (" + IntToString(r.port) + "->")
    ensures r.dockerName != "" && r.dockerImage == "" ==> s[|s| - 1] == ')'
    ensures r.dockerName != "" && r.dockerImage != "" ==>
      |s| >= |r.dockerImage| + 4 && s[|s| - |r.dockerImage| - 4..] == ") @ " + r.dockerImage
  {
    if r.dockerName == "" then ""
    else
      var head := Whale + r.dockerName + " (" + IntToString(r.port) + "->";
      var s := head + CportText(r.dockerCport) + "/" + Lower(r.protocol) + ")" + ImageTail(r.dockerImage);
      assert s[..|head|] == head;
      s
  }

  /** A row matched with container publications shows the first one's name
      (with the count of the others), its container port and image, next to
      the row's own port and lower-cased protocol */
  lemma EnrichedDockerColumn(r: PortRecord, idx: Index)
    requires Lookup(idx, r) != [] && Lookup(idx, r)[0].containerName != ""
    ensures var m := Lookup(idx, r)[0];
      DockerColumn(EnrichRecord(r, idx))
        == Whale + (m.containerName + CountSuffix(|Lookup(idx, r)|))
           + " (" + IntToString(r.port) + "->" + CportText(Some(m.containerPort))
           + "/" + Lower(r.protocol) + ")" + ImageTail(m.image)
  {
    var e := EnrichRecord(r, idx);
    var m := Lookup(idx, r)[0];
    assert e.dockerName == m.containerName + CountSuffix(|Lookup(idx, r)|);
    assert e.dockerName != "";
    assert e.port == r.port && e.protocol == r.protocol;
    assert e.dockerCport == Some(m.containerPort) && e.dockerImage == m.image;
  }
}

=== FILE: docker_scan.dfy ===
/** The container port enumerator: builds the index from (protocol, host
    port) to the container publications on that key, from the Docker SDK
    (primary) or from `docker ps --format "{{json .}}"` lines (fallback).
    Talking to the daemon, running the CLI and decoding JSON are not
    modelled: the containers and decoded rows are parameters. */
module DockerScan {
  import opened Wrappers
  import opened Text
  import opened Collections
  import opened Records

  // ---------------------------------------------------------------------
  // The index
  // ---------------------------------------------------------------------

  /** `Dict[Tuple[str, int], List[DockerPortInfo]]` */
  type Index = map<Key, seq<DockerPortInfo>>

  /** `index.get(k)`, with the empty list for a missing key */
  function Entries(idx: Index, k: Key): seq<DockerPortInfo> {
    if k in idx then idx[k] else []
  }

  /** The publications in `ms` filed under `k`, in order */
  function WithKey(ms: seq<DockerPortInfo>, k: Key): (r: seq<DockerPortInfo>)
    ensures |r| <= |ms|
    ensures forall m :: m in r ==> m in ms && InfoKey(m) == k
    decreases |ms|
  {
    if ms == [] then []
    else (if InfoKey(ms[0]) == k then [ms[0]] else []) + WithKey(ms[1..], k)
  }

  lemma {:induction false} WithKeyAppend(a: seq<DockerPortInfo>, b: seq<DockerPortInfo>, k: Key)
    ensures WithKey(a + b, k) == WithKey(a, k) + WithKey(b, k)
    decreases |a|
  {
    if a == [] {
      assert a + b == b;
    } else {
      assert (a + b)[1..] == a[1..] + b;
      WithKeyAppend(a[1..], b, k);
    }
  }

  /** `index.setdefault(key, []).append(m)`: `m` goes to the end of its
      key's list and every other list is untouched */
  function IndexAppend(idx: Index, m: DockerPortInfo): (r: Index)
    ensures r.Keys == idx.Keys + {InfoKey(m)}
    ensures Entries(r, InfoKey(m)) == Entries(idx, InfoKey(m)) + [m]
    ensures forall k :: k != InfoKey(m) ==> Entries(r, k) == Entries(idx, k)
  {
    var k := InfoKey(m);
    idx[k := Entries(idx, k) + [m]]
  }

  /** Appending the publications of `ms` one after the other */
  function IndexAll(idx: Index, ms: seq<DockerPortInfo>): Index
    decreases |ms|
  {
    if ms == [] then idx else IndexAll(IndexAppend(idx, ms[0]), ms[1..])
  }

  /** Each key's list grows by exactly the publications filed under it, in
      order, and a key is present once anything was filed under it */
  lemma {:induction false} IndexAllEntries(idx: Index, ms: seq<DockerPortInfo>, k: Key)
    ensures Entries(IndexAll(idx, ms), k) == Entries(idx, k) + WithKey(ms, k)
    ensures k in IndexAll(idx, ms) <==> k in idx || WithKey(ms, k) != []
    decreases |ms|
  {
    if ms != [] {
      var next := IndexAppend(idx, ms[0]);
      assert IndexAll(idx, ms) == IndexAll(next, ms[1..]);
      assert k in next <==> k in idx || InfoKey(ms[0]) == k;
      IndexAllEntries(next, ms[1..], k);
      assert WithKey(ms, k) == (if InfoKey(ms[0]) == k then [ms[0]] else []) + WithKey(ms[1..], k);
      if InfoKey(ms[0]) == k {
        assert Entries(next, k) == Entries(idx, k) + [ms[0]];
      } else {
        assert Entries(next, k) == Entries(idx, k);
      }
    }
  }

  /** The index built from scratch */
  function BuildIndex(ms: seq<DockerPortInfo>): (r: Index)
    ensures forall k :: Entries(r, k) == WithKey(ms, k)
    ensures forall k :: k in r ==> r[k] != [] && r[k] == WithKey(ms, k)
    ensures forall m :: m in ms ==> InfoKey(m) in r
  {
    var r := IndexAll(map[], ms);
    forall k ensures Entries(r, k) == WithKey(ms, k) && (k in r <==> WithKey(ms, k) != []) {
      IndexAllEntries(map[], ms, k);
    }
    forall m | m in ms ensures InfoKey(m) in r {
      WithKeyHas(ms, m);
    }
    r
  }

  lemma {:induction false} WithKeyHas(ms: seq<DockerPortInfo>, m: DockerPortInfo)
    requires m in ms
    ensures m in WithKey(ms, InfoKey(m))
    decreases |ms|
  {
    if ms[0] != m {
      WithKeyHas(ms[1..], m);
    }
  }

  // ---------------------------------------------------------------------
  // Primary strategy: the Docker SDK
  // ---------------------------------------------------------------------

  /** One host binding of a published port: `HostIp`, and `HostPort` as the
      text `int()` reads (a JSON number by its decimal digits), `None` when the
      key is missing or holds a value `int()` rejects */
  datatype SdkBind = SdkBind(hostIp: string, hostPort: Option<string>)

  /** `c.image`: its tags and short id */
  datatype SdkImage = SdkImage(tags: seq<string>, shortId: string)

  /** One running container: `image` is `None` when reading it raises;
      `ports` is `NetworkSettings.Ports` as (key, binds) pairs in dict order,
      a `None` binds value being an empty list */
  datatype SdkContainer = SdkContainer(id: string, name: string, image: Option<SdkImage>,
                                       ports: seq<(string, seq<SdkBind>)>)

  /** The image reference: first tag, else the short id, else `""` */
  function SdkImageName(image: Option<SdkImage>): (name: string)
    ensures image.None? ==> name == ""
    ensures image.Some? ==> name in image.value.tags || name == image.value.shortId
    ensures image.Some? && image.value.tags != [] ==> name == image.value.tags[0]
  {
    match image
    case None => ""
    case Some(img) => if img.tags != [] then img.tags[0] else img.shortId
  }

  /** `cport_str, proto = key.split("/")`: exactly one slash, digits before
      it; the protocol after it is upper-cased */
  function ParsePortKey(key: string): (r: Option<(nat, string)>)
    ensures r.Some? ==> |SplitOn(key, '/')| == 2
    ensures r.Some? ==> ParseNat(SplitOn(key, '/')[0]) == Some(r.value.0)
    ensures r.Some? ==> r.value.1 == Upper(SplitOn(key, '/')[1])
  {
    var parts := SplitOn(key, '/');
    if |parts| != 2 then None
    else
      match ParseNat(parts[0])
      case None => None
      case Some(cport) => Some((cport, Upper(parts[1])))
  }

  /** The SDK's own key shape `"<port>/<proto>"` reads back as the port and
      the upper-cased protocol */
  lemma PortKeyRoundTrip(cport: nat, proto: string)
    requires '/' !in proto
    ensures ParsePortKey(NatToString(cport) + "/" + proto) == Some((cport, Upper(proto)))
  {
    NatToStringNoSpace(cport);
    SplitJoin([NatToString(cport), proto], '/');
    assert Join([NatToString(cport), proto], '/') == NatToString(cport) + "/" + proto;
    ParseNatToString(cport);
  }

  /** The publication a bind becomes, unless its host port is not a number */
  function SdkBindInfo(c: SdkContainer, cport: int, proto: string, b: SdkBind): Option<DockerPortInfo> {
    match b.hostPort
    case None => None
    case Some(text) =>
      match ParseNat(text)
      case None => None
      case Some(hport) =>
        Some(DockerPortInfo(Take(c.id, 12), c.name, SdkImageName(c.image), b.hostIp, hport, cport, proto))
  }

  /** The publications of one `(key, binds)` entry of a container */
  function SdkEntryInfos(c: SdkContainer, entry: (string, seq<SdkBind>)): (r: seq<DockerPortInfo>)
    ensures ParsePortKey(entry.0).None? ==> r == []
    ensures |r| <= |entry.1|
    ensures forall m :: m in r ==> exists b :: b in entry.1 && SdkBindInfo(c, m.containerPort, m.protocol, b) == Some(m)
    ensures ParsePortKey(entry.0).Some? ==> forall b ::
      (b in entry.1 && SdkBindInfo(c, ParsePortKey(entry.0).value.0, ParsePortKey(entry.0).value.1, b).Some?) ==>
      SdkBindInfo(c, ParsePortKey(entry.0).value.0, ParsePortKey(entry.0).value.1, b).value in r
    ensures ParsePortKey(entry.0).Some? && |entry.1| == 1 ==>
      var info := SdkBindInfo(c, ParsePortKey(entry.0).value.0, ParsePortKey(entry.0).value.1, entry.1[0]);
      r == if info.Some? then [info.value] else []
  {
    match ParsePortKey(entry.0)
    case None => []
    case Some((cport, proto)) =>
      var r := FilterMap(entry.1, b => SdkBindInfo(c, cport, proto, b));
      assert forall m :: m in r ==> m.containerPort == cport && m.protocol == proto;
      r
  }

  /** The publications keep the order of the bindings: those of `a` then
      `b` under one key are those of `a` followed by those of `b` */
  lemma {:induction false} SdkEntryInfosAppend(c: SdkContainer, key: string, a: seq<SdkBind>, b: seq<SdkBind>)
    ensures SdkEntryInfos(c, (key, a + b)) == SdkEntryInfos(c, (key, a)) + SdkEntryInfos(c, (key, b))
  {
    match ParsePortKey(key)
    case None =>
    case Some((cport, proto)) =>
      FilterMapAppend(a, b, b => SdkBindInfo(c, cport, proto, b));
  }

  /** The publications of one container's port entries, in order: each comes
      from one entry, and every entry files all of its bindings */
  function SdkPortsInfos(c: SdkContainer, entries: seq<(string, seq<SdkBind>)>): (r: seq<DockerPortInfo>)
    ensures forall m :: m in r ==> exists i :: 0 <= i < |entries| && m in SdkEntryInfos(c, entries[i])
    ensures forall i, m :: 0 <= i < |entries| && m in SdkEntryInfos(c, entries[i]) ==> m in r
  {
    FlatMap(entries, e => SdkEntryInfos(c, e))
  }

  /** The publications of all listed containers, in order: each comes from
      one container's ports, and every container files all of its own */
  function SdkInfos(cs: seq<SdkContainer>): (r: seq<DockerPortInfo>)
    ensures forall m :: m in r ==> exists i :: 0 <= i < |cs| && m in SdkPortsInfos(cs[i], cs[i].ports)
    ensures forall i, m :: 0 <= i < |cs| && m in SdkPortsInfos(cs[i], cs[i].ports) ==> m in r
  {
    FlatMap(cs, (c: SdkContainer) => SdkPortsInfos(c, c.ports))
  }

  /** Listing more entries, or more containers, appends their publications */
  lemma SdkInfosAppend(c: SdkContainer, e1: seq<(string, seq<SdkBind>)>, e2: seq<(string, seq<SdkBind>)>,
                       cs1: seq<SdkContainer>, cs2: seq<SdkContainer>)
    ensures SdkPortsInfos(c, e1 + e2) == SdkPortsInfos(c, e1) + SdkPortsInfos(c, e2)
    ensures SdkInfos(cs1 + cs2) == SdkInfos(cs1) + SdkInfos(cs2)
  {
    FlatMapAppend(e1, e2, e => SdkEntryInfos(c, e));
    FlatMapAppend(cs1, cs2, (c: SdkContainer) => SdkPortsInfos(c, c.ports));
  }

  /** Every SDK publication names its container by the first 12 characters
      of its id and carries an upper-cased protocol */
  lemma SdkInfosShape(cs: seq<SdkContainer>)
    ensures forall m :: m in SdkInfos(cs) ==> |m.containerId| <= 12 && Upper(m.protocol) == m.protocol
    ensures forall m :: m in SdkInfos(cs) ==> exists c :: c in cs && m.containerId == Take(c.id, 12) && m.containerName == c.name
  {
    forall m | m in SdkInfos(cs)
      ensures |m.containerId| <= 12 && Upper(m.protocol) == m.protocol
      ensures exists c :: c in cs && m.containerId == Take(c.id, 12) && m.containerName == c.name
    {
      var i :| 0 <= i < |cs| && m in SdkPortsInfos(cs[i], cs[i].ports);
      SdkPortsShape(cs[i], cs[i].ports, m);
    }
  }

  lemma SdkPortsShape(c: SdkContainer, entries: seq<(string, seq<SdkBind>)>, m: DockerPortInfo)
    requires m in SdkPortsInfos(c, entries)
    ensures |m.containerId| <= 12 && Upper(m.protocol) == m.protocol
    ensures m.containerId == Take(c.id, 12) && m.containerName == c.name
  {
    var i :| 0 <= i < |entries| && m in SdkEntryInfos(c, entries[i]);
    var key := entries[i].0;
    UpperIdempotent(SplitOn(key, '/')[1]);
  }

  // ---------------------------------------------------------------------
  // Fallback strategy: `docker ps --format "{{json .}}"`
  // ---------------------------------------------------------------------

  /** One decoded `docker ps` line: its `ID`, `Names`, `Image` and `Ports`
      fields, a missing or null field being `""` */
  datatype CliRow = CliRow(id: string, names: string, image: string, ports: string)

  /** A line of output: a decoded row; a blank or undecodable line, which is
      passed over; or a line whose fields cannot be read, so that the code
      after the per-line `try` raises and ends the whole `docker ps` pass.
      That is a line that decodes to something other than an object, one
      whose `ID` is truthy but cannot be sliced, or one whose `Ports` is
      truthy but has no `split`. A falsy `ID` or `Ports` reads as `""` */
  datatype CliLine = Decoded(row: CliRow) | Skipped | Malformed

  /** One `hostIP:hostPort->containerPort/proto` clause, parsed */
  datatype Clause = Clause(hostIp: string, hostPort: nat, containerPort: nat, protocol: string)

  /** The clause text that `ParseClause` reads back */
  function FormatClause(c: Clause): string {
    c.hostIp + ":" + NatToString(c.hostPort) + "->" + NatToString(c.containerPort) + "/" + c.protocol
  }

  /** `entry.split("->", 1)`, when the clause has an arrow */
  function SplitArrow(entry: string): (r: Option<(string, string)>)
    ensures r.None? <==> !Contains(entry, "->")
    ensures r.Some? ==> entry == r.value.0 + "->" + r.value.1 && !Contains(r.value.0, "->")
  {
    match FindSub(entry, "->")
    case None => None
    case Some(i) =>
      var left, right := entry[..i], entry[i + 2..];
      assert entry == left + "->" + right by {
        assert entry[i..i + 2] == "->";
      }
      forall j: nat ensures !OccursAt(left, "->", j) {
        if j + 2 <= |left| {
          assert !OccursAt(entry, "->", j);
          assert left[j..j + 2] == entry[j..j + 2];
        }
      }
      Some((left, right))
  }

  /** The container side `cport/proto`: the digits before the first `/`
      and the upper-cased rest */
  function ParseContainerSide(right: string): (r: Option<(nat, string)>)
    ensures r.Some? ==> '/' in right && Upper(r.value.1) == r.value.1
  {
    match FindSub(right, "/")
    case None => None
    case Some(j) =>
      assert right[j..j + 1] == "/";
      match ParseNat(right[..j])
      case None => None
      case Some(cport) =>
        UpperIdempotent(right[j + 1..]);
        Some((cport, Upper(right[j + 1..])))
  }

  /** The host side `ip:hport`: the port is the last `:`-segment, the IP
      everything before the last `:` (`""` when there is none) */
  function ParseHostSide(left: string): (r: Option<(string, nat)>)
    ensures r.Some? <==> ParseNat(LastPiece(left, ':')).Some?
    ensures r.Some? ==> ParseNat(LastPiece(left, ':')) == Some(r.value.1)
    ensures r.Some? && ':' in left ==> left == r.value.0 + ":" + LastPiece(left, ':')
    ensures r.Some? && ':' !in left ==> r.value.0 == "" && ParseNat(left) == Some(r.value.1)
  {
    match ParseNat(LastPiece(left, ':'))
    case None => None
    case Some(hport) => Some((if ':' in left then BeforeLast(left, ':') else "", hport))
  }

  /** Parses one clause: `None` without `->`, without a `/` after it, or
      when either port is not a number */
  function ParseClause(entry: string): (r: Option<Clause>)
    ensures r.Some? <==>
      && SplitArrow(entry).Some?
      && ParseContainerSide(SplitArrow(entry).value.1).Some?
      && ParseHostSide(SplitArrow(entry).value.0).Some?
    ensures r.Some? ==> Upper(r.value.protocol) == r.value.protocol
  {
    match SplitArrow(entry)
    case None => None
    case Some((left, right)) =>
      match ParseContainerSide(right)
      case None => None
      case Some((cport, proto)) =>
        match ParseHostSide(left)
        case None => None
        case Some((hip, hport)) => Some(Clause(hip, hport, cport, proto))
  }

  /** A clause as `docker ps` prints it: an IP without `-` or `,`, a
      protocol without `,`, and no blank at either end */
  predicate Printable(c: Clause) {
    && '-' !in c.hostIp && ',' !in c.hostIp && ',' !in c.protocol
    && (c.hostIp == [] || !IsSpace(c.hostIp[0]))
    && c.protocol != [] && !IsSpace(c.protocol[|c.protocol| - 1])
  }

  /** The clause as read back: the protocol upper-cased */
  function Normalized(c: Clause): Clause {
    c.(protocol := Upper(c.protocol))
  }

  function NormalizedAll(cs: seq<Clause>): (r: seq<Clause>)
    ensures |r| == |cs|
    decreases |cs|
  {
    if cs == [] then [] else [Normalized(cs[0])] + NormalizedAll(cs[1..])
  }

  /** A printed clause reads back as itself, up to the protocol's case */
  lemma {:induction false} ClauseRoundTrip(c: Clause)
    requires '-' !in c.hostIp
    ensures ParseClause(FormatClause(c)) == Some(Normalized(c))
  {
    var d1 := NatToString(c.hostPort);
    var d2 := NatToString(c.containerPort);
    NatToStringNoSpace(c.hostPort);
    var left := c.hostIp + ":" + d1;
    var right := d2 + "/" + c.protocol;
    assert FormatClause(c) == c.hostIp + ":" + d1 + "->" + right;
    ArrowAfterHost(c.hostIp, d1, right);
    assert SplitArrow(FormatClause(c)) == Some((left, right));
    ContainerSideRoundTrip(c.containerPort, c.protocol);
    HostSideRoundTrip(c.hostIp, c.hostPort);
  }

  lemma ArrowAfterHost(hip: string, d1: string, right: string)
    requires '-' !in hip && AllDigits(d1)
    ensures var s := hip + ":" + d1 + "->" + right;
      FindSub(s, "->") == Some(|hip + ":" + d1|) && s[..|hip + ":" + d1|] == hip + ":" + d1
      && s[|hip + ":" + d1| + 2..] == right
  {
    var left := hip + ":" + d1;
    var s := left + "->" + right;
    assert hip + ":" + d1 + "->" + right == s;
    forall j: nat | j < |left| ensures !OccursAt(s, "->", j) {
      assert s[j] == left[j];
      if j < |hip| {
        assert left[j] == hip[j];
      } else if j > |hip| {
        assert left[j] == d1[j - |hip| - 1];
      }
    }
    FindSubAfter(left, "->", right);
  }

  lemma {:induction false} ContainerSideRoundTrip(cport: nat, proto: string)
    ensures ParseContainerSide(NatToString(cport) + "/" + proto) == Some((cport, Upper(proto)))
  {
    var d2 := NatToString(cport);
    var right := d2 + "/" + proto;
    SlashAfterPort(d2, proto);
    assert right[..|d2|] == d2;
    assert right[|d2| + 1..] == proto;
    ParseNatToString(cport);
  }

  lemma HostSideRoundTrip(hip: string, hport: nat)
    ensures ParseHostSide(hip + ":" + NatToString(hport)) == Some((hip, hport))
  {
    NatToStringNoSpace(hport);
    HostSide(hip, NatToString(hport));
    ParseNatToString(hport);
  }

  lemma SlashAfterPort(d2: string, proto: string)
    requires AllDigits(d2)
    ensures FindSub(d2 + "/" + proto, "/") == Some(|d2|)
  {
    var right := d2 + "/" + proto;
    forall j: nat | j < |d2| ensures !OccursAt(right, "/", j) {
      assert right[j] == d2[j];
    }
    FindSubAfter(d2, "/", proto);
  }

  lemma HostSide(hip: string, d1: string)
    requires ':' !in d1
    ensures var left := hip + ":" + d1;
      && ':' in left && LastPiece(left, ':') == d1 && BeforeLast(left, ':') == hip
  {
    var left := hip + ":" + d1;
    assert left == hip + [':'] + d1;
    LastPieceAfter(hip, ':', d1);
    assert left[|hip|] == ':';
    var b := BeforeLast(left, ':');
    assert b + [':'] + d1 == hip + [':'] + d1;
    assert |b| == |hip|;
    assert b == (b + [':'] + d1)[..|b|];
    assert hip == (hip + [':'] + d1)[..|hip|];
  }

  /** The stripped, non-empty comma-separated clauses of a `Ports` field */
  function ClauseTexts(ports: string): seq<string> {
    FilterMap(SplitOn(ports, ','), (e: string) => if Strip(e) == [] then None else Some(Strip(e)))
  }

  /** All clauses of a `Ports` field that parse, in order; a clause that
      does not parse is dropped on its own */
  function ParsePorts(ports: string): (r: seq<Clause>)
    ensures |r| <= |SplitOn(ports, ',')|
    ensures forall c :: c in r ==> exists e :: e in ClauseTexts(ports) && ParseClause(e) == Some(c)
  {
    FilterMap(ClauseTexts(ports), ParseClause)
  }

  /** Clauses separated by a comma parse independently: a clause that fails
      costs nothing to its siblings, and order is kept */
  lemma {:induction false} SiblingClausesIndependent(x: string, y: string)
    ensures ParsePorts(x + "," + y) == ParsePorts(x) + ParsePorts(y)
  {
    var f := (e: string) => if Strip(e) == [] then None else Some(Strip(e));
    assert x + "," + y == x + [','] + y;
    SplitOnAppend(x, ',', y);
    FilterMapAppend(SplitOn(x, ','), SplitOn(y, ','), f);
    FilterMapAppend(ClauseTexts(x), ClauseTexts(y), ParseClause);
  }

  /** A `Ports` field as `docker ps` prints it: clauses joined by `", "` */
  function PortsText(cs: seq<Clause>): string
    decreases |cs|
  {
    if cs == [] then ""
    else if |cs| == 1 then FormatClause(cs[0])
    else FormatClause(cs[0]) + ", " + PortsText(cs[1..])
  }

  /** A printed `Ports` field reads back as its clauses, in order, up to
      the protocols' case */
  lemma {:induction false} PortsRoundTrip(cs: seq<Clause>)
    requires forall i :: 0 <= i < |cs| ==> Printable(cs[i])
    ensures ParsePorts(PortsText(cs)) == NormalizedAll(cs)
  {
    PaddedPortsRoundTrip("", cs);
    assert "" + PortsText(cs) == PortsText(cs);
  }

  lemma {:induction false} PaddedPortsRoundTrip(pad: string, cs: seq<Clause>)
    requires pad == "" || pad == " "
    requires forall i :: 0 <= i < |cs| ==> Printable(cs[i])
    ensures ParsePorts(pad + PortsText(cs)) == NormalizedAll(cs)
    decreases |cs|
  {
    if cs == [] {
      assert pad + PortsText(cs) == pad;
      BlankPorts(pad);
    } else if |cs| == 1 {
      OneClause(pad, cs);
    } else {
      var tail := cs[1..];
      assert forall i :: 0 <= i < |tail| ==> Printable(tail[i]) by {
        forall i | 0 <= i < |tail| ensures Printable(tail[i]) {
          assert tail[i] == cs[i + 1];
        }
      }
      MoreClauses(pad, cs);
      PaddedPortsRoundTrip(" ", tail);
      assert NormalizedAll(cs) == [Normalized(cs[0])] + NormalizedAll(tail);
    }
  }

  lemma {:induction false} OneClause(pad: string, cs: seq<Clause>)
    requires pad == "" || pad == " "
    requires |cs| == 1 && Printable(cs[0])
    ensures ParsePorts(pad + PortsText(cs)) == NormalizedAll(cs)
  {
    assert PortsText(cs) == FormatClause(cs[0]);
    SingleClause(pad, cs[0]);
    assert NormalizedAll(cs) == [Normalized(cs[0])] + NormalizedAll([]);
  }

  lemma {:induction false} MoreClauses(pad: string, cs: seq<Clause>)
    requires pad == "" || pad == " "
    requires |cs| >= 2 && Printable(cs[0])
    ensures ParsePorts(pad + PortsText(cs)) == [Normalized(cs[0])] + ParsePorts(" " + PortsText(cs[1..]))
  {
    var x := pad + FormatClause(cs[0]);
    var y := " " + PortsText(cs[1..]);
    PortsTextCons(pad, cs);
    SiblingClausesIndependent(x, y);
    SingleClause(pad, cs[0]);
  }

  lemma PortsTextCons(pad: string, cs: seq<Clause>)
    requires |cs| >= 2
    ensures pad + PortsText(cs) == (pad + FormatClause(cs[0])) + "," + (" " + PortsText(cs[1..]))
  {
    assert PortsText(cs) == FormatClause(cs[0]) + ", " + PortsText(cs[1..]);
    CommaSpace(pad, FormatClause(cs[0]), PortsText(cs[1..]));
  }

  lemma CommaSpace(pad: string, f: string, t: string)
    ensures pad + (f + ", " + t) == (pad + f) + "," + (" " + t)
  {
    assert ", " == [','] + [' '];
  }


  lemma {:induction false} BlankPorts(pad: string)
    requires pad == "" || pad == " "
    ensures ParsePorts(pad) == []
  {
    SplitOnNoSep(pad, ',');
    StripEmpty(pad);
    assert ClauseTexts(pad) == [];
  }

  lemma {:induction false} SingleClause(pad: string, c: Clause)
    requires pad == "" || pad == " "
    requires Printable(c)
    ensures ParsePorts(pad + FormatClause(c)) == [Normalized(c)]
  {
    var f := FormatClause(c);
    FormatClauseEdges(c);
    PaddedClauseText(pad, f);
    ClauseRoundTrip(c);
  }

  lemma {:induction false} PaddedClauseText(pad: string, f: string)
    requires pad == "" || pad == " "
    requires f != [] && ',' !in f && !IsSpace(f[0]) && !IsSpace(f[|f| - 1])
    ensures ClauseTexts(pad + f) == [f]
  {
    assert ',' !in pad + f;
    SplitOnNoSep(pad + f, ',');
    StripPadded(pad, f);
  }

  /** A printed clause has no comma and no space at either end */
  lemma FormatClauseEdges(c: Clause)
    requires Printable(c)
    ensures var f := FormatClause(c);
      && f != [] && ',' !in f && !IsSpace(f[0]) && !IsSpace(f[|f| - 1])
  {
    var f := FormatClause(c);
    var d1 := NatToString(c.hostPort);
    var d2 := NatToString(c.containerPort);
    NatToStringNoSpace(c.hostPort);
    NatToStringNoSpace(c.containerPort);
    assert f == c.hostIp + ":" + d1 + "->" + d2 + "/" + c.protocol;
    assert f[0] == (if c.hostIp == [] then ':' else c.hostIp[0]);
    assert f[|f| - 1] == c.protocol[|c.protocol| - 1];
  }

  /** One clause of a `docker ps` line as a publication of that container */
  function ClauseInfo(row: CliRow, c: Clause): DockerPortInfo {
    DockerPortInfo(Take(row.id, 12), row.names, row.image, c.hostIp, c.hostPort, c.containerPort, c.protocol)
  }

  /** The rows of one decoded `docker ps` line, in clause order */
  function CliRowInfos(row: CliRow): (r: seq<DockerPortInfo>)
    ensures |r| == |ParsePorts(row.ports)|
    ensures forall i :: 0 <= i < |r| ==> r[i] == ClauseInfo(row, ParsePorts(row.ports)[i])
  {
    var cs := ParsePorts(row.ports);
    seq(|cs|, i requires 0 <= i < |cs| => ClauseInfo(row, cs[i]))
  }

  /** No line of `lines` ends the pass */
  predicate Readable(lines: seq<CliLine>) {
    forall i :: 0 <= i < |lines| ==> !lines[i].Malformed?
  }

  /** The publications one line files on its own */
  function LineInfos(line: CliLine): seq<DockerPortInfo> {
    if line.Decoded? then CliRowInfos(line.row) else []
  }

  predicate EndsPass(line: CliLine) {
    line.Malformed?
  }

  /** The publications of all `docker ps` lines, in order, up to the first
      malformed line: the rows filed before it stay in the index. Every
      publication comes from a decoded line */
  function CliInfos(lines: seq<CliLine>): (r: seq<DockerPortInfo>)
    ensures forall m :: m in r ==> exists i :: 0 <= i < |lines| && lines[i].Decoded? && m in CliRowInfos(lines[i].row)
    ensures |lines| == 1 && lines[0].Decoded? ==> r == CliRowInfos(lines[0].row)
    ensures |lines| == 1 && !lines[0].Decoded? ==> r == []
  {
    FlatMapUntil(lines, LineInfos, EndsPass)
  }

  /** Every decoded line before the first malformed one files all of its
      clauses */
  lemma CliInfosComplete(lines: seq<CliLine>, i: int, m: DockerPortInfo)
    requires 0 <= i < |lines| && lines[i].Decoded? && m in CliRowInfos(lines[i].row)
    requires Readable(lines[..i])
    ensures m in CliInfos(lines)
  {
    assert m in LineInfos(lines[i]);
    forall j | 0 <= j <= i ensures !EndsPass(lines[j]) {
      if j < i {
        assert lines[..i][j] == lines[j];
      }
    }
    FlatMapUntilComplete(lines, LineInfos, EndsPass, i, m);
  }

  /** Lines that end nothing contribute their publications one after the
      other */
  lemma CliInfosAppend(a: seq<CliLine>, b: seq<CliLine>)
    requires Readable(a)
    ensures CliInfos(a + b) == CliInfos(a) + CliInfos(b)
  {
    FlatMapUntilAppend(a, b, LineInfos, EndsPass);
  }

  /** A malformed line abandons every later line, while the lines before it
      keep their publications */
  lemma MalformedLineEndsPass(before: seq<CliLine>, after: seq<CliLine>)
    requires Readable(before)
    ensures CliInfos(before + [Malformed] + after) == CliInfos(before)
  {
    FlatMapUntilStops(before, Malformed, after, LineInfos, EndsPass);
  }

  // ---------------------------------------------------------------------
  // Strategy selection
  // ---------------------------------------------------------------------

  /** What the SDK pass produced: no SDK installed, a complete listing, or
      an exception after the publications in `partial` had been filed */
  datatype SdkOutcome = NoSdk | SdkListed(containers: seq<SdkContainer>) | SdkFailed(partial: seq<DockerPortInfo>)

  /** `collect_docker_ports`. `cliAvailable` is the `docker version` probe;
      `cliOutput` is `None` when `docker ps` itself failed. A complete SDK
      listing is final, even when empty. */
  function CollectDockerPorts(sdk: SdkOutcome, cliAvailable: bool, cliOutput: Option<seq<CliLine>>): (r: Index)
    ensures sdk.SdkListed? ==> forall k :: Entries(r, k) == WithKey(SdkInfos(sdk.containers), k)
    ensures sdk.SdkFailed? && cliAvailable && cliOutput.Some? ==>
      forall k :: Entries(r, k) == WithKey(sdk.partial, k) + WithKey(CliInfos(cliOutput.value), k)
    ensures sdk.NoSdk? && cliAvailable && cliOutput.Some? ==>
      forall k :: Entries(r, k) == WithKey(CliInfos(cliOutput.value), k)
    ensures !sdk.SdkListed? && (!cliAvailable || cliOutput.None?) ==>
      forall k :: Entries(r, k) == if sdk.SdkFailed? then WithKey(sdk.partial, k) else []
  {
    match sdk
    case SdkListed(cs) => BuildIndex(SdkInfos(cs))
    case NoSdk => FallbackIndex([], cliAvailable, cliOutput)
    case SdkFailed(partial) => FallbackIndex(partial, cliAvailable, cliOutput)
  }

  /** The index after the SDK pass did not complete: what it had filed,
      then whatever the `docker ps` pass files (nothing without the CLI) */
  function FallbackIndex(partial: seq<DockerPortInfo>, cliAvailable: bool, cliOutput: Option<seq<CliLine>>): (r: Index)
    ensures cliAvailable && cliOutput.Some? ==>
      forall k :: Entries(r, k) == WithKey(partial, k) + WithKey(CliInfos(cliOutput.value), k)
    ensures !cliAvailable || cliOutput.None? ==> forall k :: Entries(r, k) == WithKey(partial, k)
  {
    var cli := if cliAvailable && cliOutput.Some? then CliInfos(cliOutput.value) else [];
    forall k ensures WithKey(partial + cli, k) == WithKey(partial, k) + WithKey(cli, k) {
      WithKeyAppend(partial, cli, k);
    }
    assert partial + [] == partial;
    BuildIndex(partial + cli)
  }

  /** A complete SDK listing is final: the CLI is never consulted */
  lemma SdkListingIsFinal(cs: seq<SdkContainer>, cliAvailable: bool, cliOutput: Option<seq<CliLine>>, k: Key)
    ensures Entries(CollectDockerPorts(SdkListed(cs), cliAvailable, cliOutput), k) == WithKey(SdkInfos(cs), k)
  {
  }

  /** Without a working CLI the index holds just what the SDK filed before
      failing (nothing, when the SDK is absent) */
  lemma {:induction false} NoCliKeepsOnlyPartial(sdk: SdkOutcome, cliAvailable: bool, cliOutput: Option<seq<CliLine>>, k: Key)
    requires !sdk.SdkListed?
    requires !cliAvailable || cliOutput.None?
    ensures Entries(CollectDockerPorts(sdk, cliAvailable, cliOutput), k)
         == (if sdk.SdkFailed? then WithKey(sdk.partial, k) else [])
  {
    var partial := if sdk.SdkFailed? then sdk.partial else [];
    assert partial + [] == partial;
  }

  /** After an SDK failure the publications filed before it stay in the
      index and the CLI's are appended behind them, so on a shared key the
      SDK's survivor is the one shown first */
  lemma {:induction false} SdkFailureKeepsPartial(partial: seq<DockerPortInfo>, lines: seq<CliLine>, k: Key)
    ensures Entries(CollectDockerPorts(SdkFailed(partial), true, Some(lines)), k)
         == WithKey(partial, k) + WithKey(CliInfos(lines), k)
  {
    WithKeyAppend(partial, CliInfos(lines), k);
  }
}

=== FILE: host_scan.dfy ===
/** The host port enumerator: turns what the OS reports about its sockets
    into `PortRecord`s. The primary strategy normalises psutil connection
    tuples; the fallback parses the text of `netstat -ano` (Windows) or
    `lsof -nP -i` (elsewhere). Running the commands and querying psutil are
    not modelled: their outputs are parameters. */
module HostScan {
  import opened Wrappers
  import opened Text
  import opened Collections
  import opened Records

  // ---------------------------------------------------------------------
  // Primary strategy: psutil.net_connections(kind="inet")
  // ---------------------------------------------------------------------

  /** A psutil address tuple */
  datatype Addr = Addr(ip: string, port: nat)

  /** One psutil connection. `laddr`/`raddr` are `None` where psutil gives an
      empty tuple; `stream` is `type == SOCK_STREAM`. */
  datatype Conn = Conn(laddr: Option<Addr>, raddr: Option<Addr>, stream: bool, status: string, pid: Option<int>)

  /** `f"{ip}:{port}"`, or `""` without an address */
  function AddrText(a: Option<Addr>): string {
    match a
    case None => ""
    case Some(x) => x.ip + ":" + NatToString(x.port)
  }

  /** The record psutil's connection becomes, if it has a local address */
  function PsutilRecord(c: Conn, lookup: int -> Option<string>): (r: Option<PortRecord>)
    ensures r.Some? <==> c.laddr.Some?
    ensures r.Some? ==> r.value.port == c.laddr.value.port
    ensures r.Some? ==> r.value.protocol == (if c.stream then "TCP" else "UDP")
    ensures r.Some? && c.status != "" ==> r.value.status == c.status
    ensures r.Some? && c.status == "" ==> r.value.status == (if c.stream then "" else "LISTEN")
    ensures r.Some? ==> r.value.pid.None? || r.value.pid.value > 0
    ensures r.Some? ==> (r.value.pid.Some? <==> c.pid.Some? && c.pid.value > 0)
    ensures r.Some? ==> r.value.process == ProcessName(r.value.pid, lookup)
    ensures r.Some? ==> r.value.localAddr == AddrText(c.laddr) && r.value.remoteAddr == AddrText(c.raddr)
    ensures r.Some? ==> r.value.dockerName == "" && r.value.dockerCport.None?
  {
    match c.laddr
    case None => None
    case Some(a) =>
      var proto := if c.stream then "TCP" else "UDP";
      var status := if c.status != "" then c.status else if proto == "UDP" then "LISTEN" else "";
      var pid := if c.pid.Some? && c.pid.value > 0 then c.pid else None;
      Some(PortRecord(a.port, proto, status, pid, ProcessName(pid, lookup), AddrText(c.laddr), AddrText(c.raddr)))
  }

  /** Some connection of the listing has a local address */
  predicate HasLocal(conns: Option<seq<Conn>>) {
    conns.Some? && exists c :: c in conns.value && c.laddr.Some?
  }

  /** `list_used_ports_psutil`: `None` stands for `net_connections` raising */
  function PsutilRecords(conns: Option<seq<Conn>>, lookup: int -> Option<string>): (r: seq<PortRecord>)
    ensures conns.None? ==> r == []
    ensures conns.Some? ==> |r| <= |conns.value|
    ensures forall x :: x in r ==> exists c :: c in conns.value && PsutilRecord(c, lookup) == Some(x)
    ensures forall c :: conns.Some? && c in conns.value && c.laddr.Some? ==> PsutilRecord(c, lookup).value in r
    ensures r != [] <==> HasLocal(conns)
    ensures conns.Some? && |conns.value| == 1 ==>
      r == if conns.value[0].laddr.Some? then [PsutilRecord(conns.value[0], lookup).value] else []
  {
    match conns
    case None => []
    case Some(cs) =>
      var r := FilterMap(cs, c => PsutilRecord(c, lookup));
      assert r != [] ==> HasLocal(conns) by {
        if r != [] {
          assert r[0] in r;
        }
      }
      r
  }

  /** The rows keep the order of the connections: the rows of a listing are
      those of its first part followed by those of its second part */
  lemma {:induction false} PsutilRecordsAppend(a: seq<Conn>, b: seq<Conn>, lookup: int -> Option<string>)
    ensures PsutilRecords(Some(a + b), lookup) == PsutilRecords(Some(a), lookup) + PsutilRecords(Some(b), lookup)
  {
    FilterMapAppend(a, b, c => PsutilRecord(c, lookup));
  }

  /** The local address the primary strategy writes carries the port the
      fallback strategy would read back from it (text after the last `:`),
      IPv6 addresses included */
  lemma PsutilLocalAddrPort(c: Conn, lookup: int -> Option<string>)
    requires c.laddr.Some?
    ensures ParseNat(LastPiece(PsutilRecord(c, lookup).value.localAddr, ':')) == Some(c.laddr.value.port)
  {
    var a := c.laddr.value;
    NatToStringNoSpace(a.port);
    assert AddrText(c.laddr) == a.ip + [':'] + NatToString(a.port);
    LastPieceAfter(a.ip, ':', NatToString(a.port));
    ParseNatToString(a.port);
  }

  // ---------------------------------------------------------------------
  // Fallback on Windows: `netstat -ano`
  // ---------------------------------------------------------------------

  /** The columns of a netstat line: stripped, then split at whitespace */
  function NetstatColumns(raw: string): seq<string> {
    SplitWs(Strip(raw), None)
  }

  /** A netstat line the parser keeps: it starts with TCP or UDP, has at
      least four columns and the local address ends in `:<digits>` */
  predicate NetstatLineAccepted(raw: string) {
    var line := Strip(raw);
    var cols := NetstatColumns(raw);
    && (StartsWith(line, "TCP") || StartsWith(line, "UDP"))
    && |cols| >= 4
    && ParseNat(LastPiece(cols[1], ':')).Some?
  }

  /** What an accepted netstat line's columns say about its record: the
      port ends the local address, the protocol is the first column
      upper-cased, the state (fourth column) is kept only for TCP, the pid
      is the last column when there are five or more, and the process name
      is looked up from that pid */
  predicate NetstatFields(cols: seq<string>, rec: PortRecord, lookup: int -> Option<string>)
    requires |cols| >= 4
  {
    && ParseNat(LastPiece(cols[1], ':')) == Some(rec.port)
    && rec.protocol == Upper(cols[0])
    && rec.status == (if Upper(cols[0]) == "TCP" then cols[3] else "")
    && rec.pid == (if |cols| >= 5 then ParseNat(cols[|cols| - 1]) else None)
    && rec.process == ProcessName(rec.pid, lookup)
    && rec.localAddr == cols[1] && rec.remoteAddr == cols[2]
    && rec.dockerName == "" && rec.dockerCport.None?
  }

  /** One line of `netstat -ano` output, as the body of the loop over
      `out.splitlines()` reads it: skipped unless accepted, otherwise read
      column by column. The protocol is upper-cased, the state is kept only
      for TCP and the pid is read only when there are five or more columns. */
  function ParseNetstatLine(raw: string, lookup: int -> Option<string>): (r: Option<PortRecord>)
    ensures r.Some? <==> NetstatLineAccepted(raw)
    ensures r.Some? ==> NetstatFields(NetstatColumns(raw), r.value, lookup)
  {
    var line := Strip(raw);
    if !(StartsWith(line, "TCP") || StartsWith(line, "UDP")) then None
    else
      var parts := NetstatColumns(raw);
      if |parts| < 4 then None
      else
        match ParseNat(LastPiece(parts[1], ':'))
        case None => None
        case Some(port) =>
          var proto := Upper(parts[0]);
          var state := if proto == "TCP" then parts[3] else "";
          var pid: Option<int> := if |parts| >= 5 then ParseNat(parts[|parts| - 1]) else None;
          Some(PortRecord(port, proto, state, pid, ProcessName(pid, lookup), parts[1], parts[2]))
  }

  /** The netstat parser reads back the columns of any line laid out as
      space-separated columns: protocol, local, remote, then the state
      and/or pid. With exactly four columns no pid is read, so the pid of a
      Windows UDP line (which has no state column) is lost. */
  lemma {:induction false} NetstatColumnsRoundTrip(cols: seq<string>, port: nat, lookup: int -> Option<string>)
    requires |cols| >= 4
    requires forall i :: 0 <= i < |cols| ==> cols[i] != [] && NoSpace(cols[i])
    requires StartsWith(cols[0], "TCP") || StartsWith(cols[0], "UDP")
    requires LastPiece(cols[1], ':') == NatToString(port)
    ensures var r := ParseNetstatLine(Join(cols, ' '), lookup);
      && r.Some?
      && r.value.port == port
      && r.value.protocol == Upper(cols[0])
      && r.value.localAddr == cols[1] && r.value.remoteAddr == cols[2]
      && r.value.status == (if Upper(cols[0]) == "TCP" then cols[3] else "")
      && r.value.pid == (if |cols| >= 5 then ParseNat(cols[|cols| - 1]) else None)
  {
    var line := Join(cols, ' ');
    JoinedColumns(cols);
    if StartsWith(cols[0], "TCP") {
      StartsWithExtend(line, cols[0], "TCP");
    } else {
      StartsWithExtend(line, cols[0], "UDP");
    }
    ParseNatToString(port);
    assert ParseNat(LastPiece(cols[1], ':')) == Some(port);
    assert NetstatLineAccepted(line);
    var r := ParseNetstatLine(line, lookup);
    assert NetstatColumns(line) == cols;
    assert NetstatFields(cols, r.value, lookup);
  }

  /** Space-free columns joined by spaces: the line is its own strip, splits
      back into the columns and starts like the first column */
  lemma {:induction false} JoinedColumns(cols: seq<string>)
    requires |cols| >= 1
    requires forall i :: 0 <= i < |cols| ==> cols[i] != [] && NoSpace(cols[i])
    ensures NetstatColumns(Join(cols, ' ')) == cols
    ensures Strip(Join(cols, ' ')) == Join(cols, ' ')
    ensures |cols[0]| <= |Join(cols, ' ')| && Join(cols, ' ')[..|cols[0]|] == cols[0]
  {
    JoinedStrip(cols);
    SplitWsJoin(cols);
    JoinPrefix(cols, ' ');
  }

  lemma JoinedStrip(cols: seq<string>)
    requires |cols| >= 1
    requires forall i :: 0 <= i < |cols| ==> cols[i] != [] && NoSpace(cols[i])
    ensures Strip(Join(cols, ' ')) == Join(cols, ' ')
  {
    var line := Join(cols, ' ');
    JoinHead(cols, ' ');
    JoinLast(cols, ' ');
    var l := cols[|cols| - 1];
    assert !IsSpace(l[|l| - 1]);
    assert !IsSpace(cols[0][0]);
    StripNoEdgeSpace(line);
  }

  /** `netstat -ano` output, line by line */
  function ParseNetstat(lines: seq<string>, lookup: int -> Option<string>): (r: seq<PortRecord>)
    ensures |r| <= |lines|
    ensures forall x :: x in r ==> exists l :: l in lines && ParseNetstatLine(l, lookup) == Some(x)
    ensures forall l :: l in lines && NetstatLineAccepted(l) ==> ParseNetstatLine(l, lookup).value in r
    ensures |lines| == 1 ==> r == if NetstatLineAccepted(lines[0]) then [ParseNetstatLine(lines[0], lookup).value] else []
  {
    FilterMap(lines, l => ParseNetstatLine(l, lookup))
  }

  /** The rows keep the order of the lines: the rows of an output are those
      of its first lines followed by those of the rest */
  lemma {:induction false} ParseNetstatAppend(a: seq<string>, b: seq<string>, lookup: int -> Option<string>)
    ensures ParseNetstat(a + b, lookup) == ParseNetstat(a, lookup) + ParseNetstat(b, lookup)
  {
    FilterMapAppend(a, b, l => ParseNetstatLine(l, lookup));
  }

  // ---------------------------------------------------------------------
  // Fallback elsewhere: `lsof -nP -i`
  // ---------------------------------------------------------------------

  /** The length of the longest all-digit prefix */
  function SpanDigits(s: string): (n: nat)
    ensures n <= |s| && AllDigits(s[..n])
    ensures n < |s| ==> !IsDigit(s[n])
    decreases |s|
  {
    if s != [] && IsDigit(s[0]) then 1 + SpanDigits(s[1..]) else 0
  }

  /** Position `i` holds a colon followed by a digit */
  predicate ColonDigitAt(s: string, i: nat) {
    i + 1 < |s| && s[i] == ':' && IsDigit(s[i + 1])
  }

  /** The first position at or after `from` where a colon is followed by a digit */
  function FirstColonDigit(s: string, from: nat): (r: Option<nat>)
    ensures r.Some? ==> from <= r.value && ColonDigitAt(s, r.value)
    ensures r.Some? ==> forall j: nat :: from <= j < r.value ==> !ColonDigitAt(s, j)
    ensures r.None? ==> forall j: nat :: from <= j ==> !ColonDigitAt(s, j)
    decreases |s| - from
  {
    if from + 1 >= |s| then None
    else if ColonDigitAt(s, from) then Some(from)
    else FirstColonDigit(s, from + 1)
  }

  /** `v` is what `re.search(r":(\d+)", s)` finds, read with `int()`: the
      colon at `i` is the first one followed by a digit, and the `n` digits
      after it are the whole run of digits there */
  predicate FirstColonNumber(s: string, i: nat, n: nat, v: nat) {
    && ColonDigitAt(s, i)
    && (forall j: nat :: j < i ==> !ColonDigitAt(s, j))
    && i + 1 + n <= |s|
    && (i + 1 + n == |s| || !IsDigit(s[i + 1 + n]))
    && ParseNat(s[i + 1..i + 1 + n]) == Some(v)
  }

  /** `re.search(r":(\d+)", s)` read with `int()`: the digits after the
      first colon that is followed by a digit */
  function ColonNumber(s: string): (r: Option<nat>)
    ensures r.None? <==> forall j: nat :: !ColonDigitAt(s, j)
    ensures r.Some? ==> exists i: nat, n: nat :: FirstColonNumber(s, i, n, r.value)
  {
    match FirstColonDigit(s, 0)
    case None => None
    case Some(i) =>
      var digits := s[i + 1..];
      var n := SpanDigits(digits);
      assert IsDigit(digits[0]);
      assert digits[..n] == s[i + 1..i + 1 + n];
      assert FirstColonNumber(s, i, n, DigitsValue(digits[..n]));
      Some(DigitsValue(digits[..n]))
  }

  /** For an address `host:port` whose host has no colon (IPv4, `*`), the
      number read is the port, whatever follows it, e.g. ` (LISTEN)` or
      `->10.0.0.2:5000` */
  lemma ColonNumberAfterHost(host: string, port: nat, rest: string)
    requires ':' !in host
    requires rest == [] || !IsDigit(rest[0])
    ensures ColonNumber(host + ":" + NatToString(port) + rest) == Some(port)
  {
    var d := NatToString(port);
    ColonDigitsAfterHost(host, d, rest);
    ParseNatToString(port);
    assert ParseNat(d) == Some(DigitsValue(d));
  }

  lemma ColonDigitsAfterHost(host: string, d: string, rest: string)
    requires ':' !in host
    requires d != [] && AllDigits(d)
    requires rest == [] || !IsDigit(rest[0])
    ensures ColonNumber(host + ":" + d + rest) == Some(DigitsValue(d))
  {
    var s := host + ":" + d + rest;
    FirstColonDigitAfterHost(host, d, rest);
    assert s[|host| + 1..] == d + rest;
    ColonNumberAt(s, |host|, d, rest);
  }

  /** When the first colon followed by a digit sits at `i` and the digits
      `d` after it end there, the number read is `d`'s value */
  lemma ColonNumberAt(s: string, i: nat, d: string, rest: string)
    requires d != [] && AllDigits(d)
    requires rest == [] || !IsDigit(rest[0])
    requires i + 1 <= |s| && s[i + 1..] == d + rest
    requires FirstColonDigit(s, 0) == Some(i)
    ensures ColonNumber(s) == Some(DigitsValue(d))
  {
    var digits := s[i + 1..];
    SpanDigitsPrefix(d, rest);
    assert digits[..|d|] == d;
  }

  lemma FirstColonDigitAfterHost(host: string, d: string, rest: string)
    requires ':' !in host
    requires d != [] && AllDigits(d)
    ensures FirstColonDigit(host + ":" + d + rest, 0) == Some(|host|)
  {
    var s := host + ":" + d + rest;
    assert s[|host|] == ':' && s[|host| + 1] == d[0];
    assert ColonDigitAt(s, |host|);
    forall j: nat | j < |host| ensures !ColonDigitAt(s, j) {
      assert s[j] == host[j];
    }
  }

  lemma {:induction false} SpanDigitsPrefix(d: string, rest: string)
    requires AllDigits(d)
    requires rest == [] || !IsDigit(rest[0])
    ensures SpanDigits(d + rest) == |d|
    decreases |d|
  {
    if d != [] {
      assert (d + rest)[1..] == d[1..] + rest;
      SpanDigitsPrefix(d[1..], rest);
    } else {
      assert d + rest == rest;
    }
  }

  /** The lsof parser's keyword test: `first` when the text contains it,
      else `second` when it contains that, else `otherwise` */
  function Keyword(text: string, first: string, second: string, otherwise: string): (w: string)
    requires first != second && first != otherwise && second != otherwise
    ensures w == first <==> Contains(text, first)
    ensures w == second <==> !Contains(text, first) && Contains(text, second)
    ensures w == otherwise <==> !Contains(text, first) && !Contains(text, second)
  {
    if Contains(text, first) then first else if Contains(text, second) then second else otherwise
  }

  /** The protocol the lsof parser reads from a column: TCP or UDP when the
      column contains that word, `?` otherwise */
  function LsofProtocol(column: string): string {
    Keyword(column, "TCP", "UDP", "?")
  }

  /** The state the lsof parser reads from the NAME column */
  function LsofStatus(name: string): string {
    Keyword(name, "LISTEN", "ESTABLISHED", "")
  }

  /** The lsof column header, in order */
  const LsofColumnCount := 9
  const NodeColumn := 7
  const NameColumn := 8

  /** One data line of `lsof -nP -i` output, split into at most nine columns
      (COMMAND PID USER FD TYPE DEVICE SIZE/OFF NODE NAME, the NAME keeping
      its spaces); the protocol is looked for in column `protoColumn`. */
  function ParseLsofLineWith(line: string, protoColumn: nat): (r: Option<PortRecord>)
    requires protoColumn < LsofColumnCount
    ensures r.Some? ==> Strip(line) != []
    ensures r.Some? ==> var cols := SplitWs(line, Some(8));
      && |cols| == LsofColumnCount
      && ColonNumber(cols[NameColumn]) == Some(r.value.port)
      && r.value.protocol == LsofProtocol(cols[protoColumn])
      && r.value.status == LsofStatus(cols[NameColumn])
      && r.value.pid == ParseNat(cols[1])
      && r.value.process == cols[0]
      && r.value.localAddr == cols[NameColumn] && r.value.remoteAddr == ""
    ensures r.None? <==> Strip(line) == [] || |SplitWs(line, Some(8))| < LsofColumnCount
                         || ColonNumber(SplitWs(line, Some(8))[NameColumn]).None?
  {
    if Strip(line) == [] then None
    else
      var parts := SplitWs(line, Some(8));
      if |parts| < LsofColumnCount then None
      else
        var name := parts[NameColumn];
        match ColonNumber(name)
        case None => None
        case Some(port) =>
          var pid: Option<int> := ParseNat(parts[1]);
          Some(PortRecord(port, LsofProtocol(parts[protoColumn]), LsofStatus(name), pid, parts[0], name, ""))
  }

  /** The lsof line parser as `list_used_ports_netstat` has it: the
      protocol is looked for in `name`, the NAME column, so port, state and
      protocol are all read from the address text */
  function ParseLsofLineAsWritten(line: string): (r: Option<PortRecord>)
    ensures r.Some? ==> r.value.protocol == LsofProtocol(r.value.localAddr)
    ensures r.Some? ==> ColonNumber(r.value.localAddr) == Some(r.value.port)
    ensures r.Some? ==> r.value.status == LsofStatus(r.value.localAddr)
  {
    ParseLsofLineWith(line, NameColumn)
  }

  /** The lsof line parser with the protocol taken from the NODE column,
      where lsof prints TCP / UDP: it keeps the same lines as the parser as
      written and differs from it in the protocol alone */
  function ParseLsofLine(line: string): (r: Option<PortRecord>)
    ensures r.Some? <==> ParseLsofLineAsWritten(line).Some?
    ensures r.Some? ==> r.value.protocol == LsofProtocol(SplitWs(line, Some(8))[NodeColumn])
    ensures r.Some? ==> ParseLsofLineAsWritten(line).value == r.value.(protocol := LsofProtocol(r.value.localAddr))
  {
    ParseLsofLineWith(line, NodeColumn)
  }

  /** On a line laid out as eight space-free columns and a NAME, both parsers
      read the command, pid, port and state alike; the protocol comes from
      the NAME column as written and from the NODE column once corrected. */
  lemma {:induction false} LsofColumnsRoundTrip(cols: seq<string>, name: string)
    requires |cols| == 8
    requires forall i :: 0 <= i < 8 ==> cols[i] != [] && NoSpace(cols[i])
    requires name == [] || !IsSpace(name[0])
    requires ColonNumber(name).Some?
    ensures var w := ParseLsofLineAsWritten(Join(cols + [name], ' '));
      var c := ParseLsofLine(Join(cols + [name], ' '));
      && w.Some? && c.Some?
      && w.value == c.value.(protocol := LsofProtocol(name))
      && c.value.protocol == LsofProtocol(cols[NodeColumn])
      && c.value.port == ColonNumber(name).value
      && c.value.process == cols[0] && c.value.pid == ParseNat(cols[1])
      && c.value.localAddr == name && c.value.status == LsofStatus(name)
  {
    var parts := cols + [name];
    var line := Join(parts, ' ');
    SplitWsJoinLimited(parts, 8);
    JoinHead(parts, ' ');
    StripEmpty(line);
  }

  /** The lines after lsof's header line */
  function DataLines(lines: seq<string>): (d: seq<string>)
    ensures |d| == if lines == [] then 0 else |lines| - 1
    ensures forall i :: 0 <= i < |d| ==> d[i] == lines[i + 1]
  {
    if lines == [] then [] else lines[1..]
  }

  /** `lsof -nP -i` output: the header line is skipped and every later
      line goes through the line parser that reads the protocol from
      column `protoColumn` */
  function ParseLsofWith(lines: seq<string>, protoColumn: nat): (r: seq<PortRecord>)
    requires protoColumn < LsofColumnCount
    ensures |lines| <= 1 ==> r == []
    ensures |r| <= |lines|
    ensures forall x :: x in r ==> exists l :: l in DataLines(lines) && ParseLsofLineWith(l, protoColumn) == Some(x)
    ensures forall l :: l in DataLines(lines) && ParseLsofLineWith(l, protoColumn).Some? ==>
      ParseLsofLineWith(l, protoColumn).value in r
    ensures |lines| == 2 ==>
      r == if ParseLsofLineWith(lines[1], protoColumn).Some? then [ParseLsofLineWith(lines[1], protoColumn).value] else []
  {
    FilterMap(DataLines(lines), l => ParseLsofLineWith(l, protoColumn))
  }

  /** The rows keep the order of the data lines: under one header, the rows
      of `a` then `b` are those of `a` followed by those of `b` */
  lemma {:induction false} ParseLsofWithAppend(header: string, a: seq<string>, b: seq<string>, protoColumn: nat)
    requires protoColumn < LsofColumnCount
    ensures ParseLsofWith([header] + a + b, protoColumn)
         == ParseLsofWith([header] + a, protoColumn) + ParseLsofWith([header] + b, protoColumn)
  {
    assert DataLines([header] + a + b) == a + b;
    assert DataLines([header] + a) == a;
    assert DataLines([header] + b) == b;
    FilterMapAppend(a, b, l => ParseLsofLineWith(l, protoColumn));
  }

  /** `lsof -nP -i` output as the source reads it: the header line is
      skipped, every row comes from one later line and every accepted line
      gives its row, whose protocol is read from its address text */
  function ParseLsof(lines: seq<string>): (r: seq<PortRecord>)
    ensures |lines| <= 1 ==> r == []
    ensures forall x :: x in r ==> exists l :: l in DataLines(lines) && ParseLsofLineAsWritten(l) == Some(x)
    ensures forall l :: l in DataLines(lines) && ParseLsofLineAsWritten(l).Some? ==> ParseLsofLineAsWritten(l).value in r
    ensures forall x :: x in r ==> x.protocol == LsofProtocol(x.localAddr)
    ensures |lines| == 2 ==>
      r == if ParseLsofLineAsWritten(lines[1]).Some? then [ParseLsofLineAsWritten(lines[1]).value] else []
  {
    ParseLsofWith(lines, NameColumn)
  }

  /** The rows of the parser as written keep the order of the data lines */
  lemma ParseLsofAppend(header: string, a: seq<string>, b: seq<string>)
    ensures ParseLsof([header] + a + b) == ParseLsof([header] + a) + ParseLsof([header] + b)
  {
    ParseLsofWithAppend(header, a, b, NameColumn);
  }

  /** `lsof -nP -i` output read with the corrected line parser */
  function ParseLsofCorrected(lines: seq<string>): (r: seq<PortRecord>)
    ensures |lines| <= 1 ==> r == []
    ensures forall x :: x in r ==> exists l :: l in DataLines(lines) && ParseLsofLine(l) == Some(x)
    ensures forall l :: l in DataLines(lines) && ParseLsofLine(l).Some? ==> ParseLsofLine(l).value in r
    ensures |lines| == 2 ==> r == if ParseLsofLine(lines[1]).Some? then [ParseLsofLine(lines[1]).value] else []
  {
    ParseLsofWith(lines, NodeColumn)
  }

  /** The rows of the corrected parser keep the order of the data lines */
  lemma ParseLsofCorrectedAppend(header: string, a: seq<string>, b: seq<string>)
    ensures ParseLsofCorrected([header] + a + b) == ParseLsofCorrected([header] + a) + ParseLsofCorrected([header] + b)
  {
    ParseLsofWithAppend(header, a, b, NodeColumn);
  }

  // ---------------------------------------------------------------------
  // Strategy selection
  // ---------------------------------------------------------------------

  datatype HostOs = Windows | Posix

  /** `list_used_ports_netstat`: the command's output lines, `None` when the
      command could not be run (every error yields no records); lsof lines
      are read with the protocol taken from column `lsofColumn` */
  function NetstatRecordsWith(os: HostOs, output: Option<seq<string>>, lookup: int -> Option<string>,
                              lsofColumn: nat): (r: seq<PortRecord>)
    requires lsofColumn < LsofColumnCount
    ensures output.None? ==> r == []
    ensures output.Some? && os == Windows ==> r == ParseNetstat(output.value, lookup)
    ensures output.Some? && os == Posix ==> r == ParseLsofWith(output.value, lsofColumn)
  {
    match output
    case None => []
    case Some(lines) => if os == Windows then ParseNetstat(lines, lookup) else ParseLsofWith(lines, lsofColumn)
  }

  /** `list_used_ports_netstat` as written: a failed command gives no rows,
      Windows uses the netstat parser and every other system the lsof parser */
  function NetstatRecords(os: HostOs, output: Option<seq<string>>, lookup: int -> Option<string>): (r: seq<PortRecord>)
    ensures output.None? ==> r == []
    ensures output.Some? && os == Windows ==> r == ParseNetstat(output.value, lookup)
    ensures output.Some? && os == Posix ==> r == ParseLsof(output.value)
  {
    NetstatRecordsWith(os, output, lookup, NameColumn)
  }

  /** `list_used_ports_netstat` with the corrected lsof parser */
  function NetstatRecordsCorrected(os: HostOs, output: Option<seq<string>>, lookup: int -> Option<string>): (r: seq<PortRecord>)
    ensures output.None? ==> r == []
    ensures output.Some? && os == Windows ==> r == ParseNetstat(output.value, lookup)
    ensures output.Some? && os == Posix ==> r == ParseLsofCorrected(output.value)
  {
    NetstatRecordsWith(os, output, lookup, NodeColumn)
  }

  /** `collect_used_ports`: the primary strategy's records when psutil is
      present and found any, otherwise the fallback's */
  function CollectUsedPorts(hasPsutil: bool, primary: seq<PortRecord>, fallback: seq<PortRecord>): (r: seq<PortRecord>)
    ensures hasPsutil && primary != [] ==> r == primary
    ensures !hasPsutil || primary == [] ==> r == fallback
    ensures r == [] <==> fallback == [] && (primary == [] || !hasPsutil)
  {
    if hasPsutil && primary != [] then primary else fallback
  }

  /** The process-name lookup `_safe_proc_name` can use: psutil's when psutil
      is installed, and none at all otherwise, every named pid then showing
      as `PID <n>` */
  function ProcessLookup(hasPsutil: bool, lookup: int -> Option<string>): (f: int -> Option<string>)
    ensures hasPsutil ==> forall p :: f(p) == lookup(p)
    ensures !hasPsutil ==> forall p :: f(p).None?
  {
    if hasPsutil then lookup else (p: int) => None
  }

  /** Without psutil a netstat row never carries a looked-up name: a row with
      a pid is named `PID <n>` */
  lemma NetstatWithoutPsutil(lines: seq<string>, lookup: int -> Option<string>)
    ensures forall x :: x in ParseNetstat(lines, ProcessLookup(false, lookup)) && x.pid.Some? && x.pid.value != 0 ==>
      x.process == "PID " + IntToString(x.pid.value)
  {
    var none := ProcessLookup(false, lookup);
    forall x | x in ParseNetstat(lines, none) && x.pid.Some? && x.pid.value != 0
      ensures x.process == "PID " + IntToString(x.pid.value)
    {
      var l :| l in lines && ParseNetstatLine(l, none) == Some(x);
      assert NetstatFields(NetstatColumns(l), x, none);
      assert none(x.pid.value).None?;
    }
  }

  /** The whole host scan, from the two strategies' raw outputs: psutil's
      records when psutil is present and reports a connection with a local
      address, otherwise the fallback command's records, whose process names
      are looked up through psutil only when it is installed */
  function ScanHostWith(hasPsutil: bool, conns: Option<seq<Conn>>, os: HostOs, output: Option<seq<string>>,
                        lookup: int -> Option<string>, lsofColumn: nat): (r: seq<PortRecord>)
    requires lsofColumn < LsofColumnCount
    ensures hasPsutil && HasLocal(conns) ==> r == PsutilRecords(conns, lookup)
    ensures hasPsutil && !HasLocal(conns) ==> r == NetstatRecordsWith(os, output, lookup, lsofColumn)
    ensures !hasPsutil ==> r == NetstatRecordsWith(os, output, ProcessLookup(false, lookup), lsofColumn)
    ensures !hasPsutil && os == Windows ==>
      forall x :: x in r && x.pid.Some? && x.pid.value != 0 ==> x.process == "PID " + IntToString(x.pid.value)
  {
    var fallback := NetstatRecordsWith(os, output, ProcessLookup(hasPsutil, lookup), lsofColumn);
    var r := CollectUsedPorts(hasPsutil, PsutilRecords(conns, lookup), fallback);
    if !hasPsutil && output.Some? then
      NetstatWithoutPsutil(output.value, lookup);
      r
    else r
  }

  /** `collect_used_ports` as written */
  function ScanHost(hasPsutil: bool, conns: Option<seq<Conn>>, os: HostOs, output: Option<seq<string>>,
                    lookup: int -> Option<string>): (r: seq<PortRecord>)
    ensures hasPsutil && HasLocal(conns) ==> r == PsutilRecords(conns, lookup)
    ensures hasPsutil && !HasLocal(conns) ==> r == NetstatRecords(os, output, lookup)
    ensures !hasPsutil ==> r == NetstatRecords(os, output, ProcessLookup(false, lookup))
    ensures !hasPsutil && os == Windows ==>
      forall x :: x in r && x.pid.Some? && x.pid.value != 0 ==> x.process == "PID " + IntToString(x.pid.value)
  {
    ScanHostWith(hasPsutil, conns, os, output, lookup, NameColumn)
  }

  /** `collect_used_ports` with the corrected lsof parser: it differs from
      the scan as written only when the lsof fallback is used */
  function ScanHostCorrected(hasPsutil: bool, conns: Option<seq<Conn>>, os: HostOs, output: Option<seq<string>>,
                             lookup: int -> Option<string>): (r: seq<PortRecord>)
    ensures (hasPsutil && HasLocal(conns)) || os == Windows || output.None? ==>
      r == ScanHost(hasPsutil, conns, os, output, lookup)
    ensures !(hasPsutil && HasLocal(conns)) && os == Posix && output.Some? ==> r == ParseLsofCorrected(output.value)
  {
    ScanHostWith(hasPsutil, conns, os, output, lookup, NodeColumn)
  }
}

=== FILE: reconcile.dfy ===
/** The reconciliation engine: folds the scanned bindings into one row per
    (protocol, port), sweeps the configured range for both protocols,
    synthesises FREE rows for unbound ports, enriches every row from the
    container index and applies the "only used" and "only Docker" filters.
    The range bounds and the two check boxes are parameters. */
module Reconcile {
  import opened Wrappers
  import opened Text
  import opened Collections
  import opened Records
  import opened DockerScan

  // ---------------------------------------------------------------------
  // Folding the scan into one record per key
  // ---------------------------------------------------------------------

  /** `used_ports_map` */
  type UsedMap = map<Key, PortRecord>

  /** Every entry is filed under its own record's key */
  predicate Consistent(used: UsedMap) {
    forall k :: k in used ==> KeyOf(used[k]) == k
  }

  /** The reference reading of "first wins": the first record with key `k` */
  function FirstWith(rs: seq<PortRecord>, k: Key): (r: Option<PortRecord>)
    ensures r.Some? ==> r.value in rs && KeyOf(r.value) == k
    ensures r.None? ==> forall x :: x in rs ==> KeyOf(x) != k
    decreases |rs|
  {
    if rs == [] then None
    else if KeyOf(rs[0]) == k then Some(rs[0])
    else FirstWith(rs[1..], k)
  }

  /** The loop over the scan: a record is filed unless its key already is */
  function Dedup(rs: seq<PortRecord>): (m: UsedMap)
    ensures Consistent(m)
    ensures forall r :: r in rs ==> KeyOf(r) in m
    ensures forall k :: k in m ==> m[k] in rs
    decreases |rs|
  {
    if rs == [] then map[]
    else
      var init := rs[..|rs| - 1];
      var last := rs[|rs| - 1];
      var m := Dedup(init);
      assert forall r :: r in rs ==> r in init || r == last;
      assert forall r :: r in init ==> r in rs;
      if KeyOf(last) in m then m else m[KeyOf(last) := last]
  }

  lemma {:induction false} FirstWithSnoc(rs: seq<PortRecord>, x: PortRecord, k: Key)
    ensures FirstWith(rs + [x], k) ==
      if FirstWith(rs, k).Some? then FirstWith(rs, k)
      else if KeyOf(x) == k then Some(x) else None
    decreases |rs|
  {
    if rs == [] {
      assert rs + [x] == [x];
    } else {
      assert (rs + [x])[1..] == rs[1..] + [x];
      FirstWithSnoc(rs[1..], x, k);
    }
  }

  /** The map keeps, for every key, exactly the first record carrying it */
  lemma {:induction false} DedupFirstWins(rs: seq<PortRecord>, k: Key)
    ensures k in Dedup(rs) <==> FirstWith(rs, k).Some?
    ensures k in Dedup(rs) ==> Dedup(rs)[k] == FirstWith(rs, k).value
    decreases |rs|
  {
    if rs != [] {
      var init := rs[..|rs| - 1];
      var last := rs[|rs| - 1];
      assert rs == init + [last];
      DedupFirstWins(init, k);
      FirstWithSnoc(init, last, k);
      if KeyOf(last) != k {
        assert k in Dedup(rs) <==> k in Dedup(init);
      }
    }
  }

  // ---------------------------------------------------------------------
  // Sweeping the range
  // ---------------------------------------------------------------------

  /** How many ports `range(lo, hi + 1)` visits */
  function Width(lo: int, hi: int): nat {
    if hi < lo then 0 else hi - lo + 1
  }

  /** The row a port of protocol `p` gets: its binding, or a FREE placeholder */
  function SlotRecord(p: string, port: int, used: UsedMap): PortRecord {
    if Key(p, port) in used then used[Key(p, port)] else FreeRecord(p, port)
  }

  /** What one port contributes: its binding; else a FREE row unless only
      used ports are wanted */
  function Slot(p: string, port: int, used: UsedMap, onlyUsed: bool): seq<PortRecord> {
    if Key(p, port) in used then [used[Key(p, port)]]
    else if onlyUsed then []
    else [FreeRecord(p, port)]
  }

  /** `for port in range(lo, hi + 1)` for one protocol `p` */
  function Sweep(p: string, lo: int, hi: int, used: UsedMap, onlyUsed: bool): (rows: seq<PortRecord>)
    ensures |rows| <= Width(lo, hi)
    ensures !onlyUsed ==> |rows| == Width(lo, hi)
    decreases hi - lo + 1
  {
    if hi < lo then [] else Sweep(p, lo, hi - 1, used, onlyUsed) + Slot(p, hi, used, onlyUsed)
  }

  /** Without "only used", the row at offset `i` is the slot of port `lo + i` */
  lemma {:induction false} SweepLayout(p: string, lo: int, hi: int, used: UsedMap)
    ensures forall i :: 0 <= i < Width(lo, hi) ==> Sweep(p, lo, hi, used, false)[i] == SlotRecord(p, lo + i, used)
    decreases hi - lo + 1
  {
    if lo <= hi {
      SweepLayout(p, lo, hi - 1, used);
      var rest := Sweep(p, lo, hi - 1, used, false);
      assert Sweep(p, lo, hi, used, false) == rest + [SlotRecord(p, hi, used)];
    }
  }

  /** Every bound port of the range appears */
  lemma {:induction false} SweepComplete(p: string, lo: int, hi: int, used: UsedMap, onlyUsed: bool, port: int)
    requires lo <= port <= hi && Key(p, port) in used
    ensures used[Key(p, port)] in Sweep(p, lo, hi, used, onlyUsed)
    decreases hi - lo + 1
  {
    if port < hi {
      SweepComplete(p, lo, hi - 1, used, onlyUsed, port);
    }
  }

  /** Every row is the slot of a port of the range; with "only used", a
      binding */
  lemma {:induction false} SweepSound(p: string, lo: int, hi: int, used: UsedMap, onlyUsed: bool, r: PortRecord)
    requires r in Sweep(p, lo, hi, used, onlyUsed)
    ensures exists port :: lo <= port <= hi && SlotRecord(p, port, used) == r
                           && (onlyUsed ==> Key(p, port) in used)
    decreases hi - lo + 1
  {
    var rest := Sweep(p, lo, hi - 1, used, onlyUsed);
    if r in rest {
      SweepSound(p, lo, hi - 1, used, onlyUsed, r);
    } else {
      assert r in Slot(p, hi, used, onlyUsed);
      assert SlotRecord(p, hi, used) == r;
    }
  }

  // ---------------------------------------------------------------------
  // Enrichment
  // ---------------------------------------------------------------------

  /** The publications a row is matched with: its own key, and for a UDP
      row that has none, the TCP publication of the same port */
  function Lookup(idx: Index, r: PortRecord): (infos: seq<DockerPortInfo>)
    ensures Entries(idx, KeyOf(r)) != [] ==> infos == Entries(idx, KeyOf(r))
    ensures Entries(idx, KeyOf(r)) == [] && Upper(r.protocol) != "UDP" ==> infos == []
    ensures Entries(idx, KeyOf(r)) == [] && Upper(r.protocol) == "UDP" ==> infos == Entries(idx, Key("TCP", r.port))
  {
    var infos := Entries(idx, KeyOf(r));
    if infos == [] && Upper(r.protocol) == "UDP" then Entries(idx, Key("TCP", r.port)) else infos
  }

  /** `" (+n)"` for `n` further publications on the same key: nothing for a
      single publication, else the extra count in decimal, which reads back */
  function CountSuffix(count: nat): (s: string)
    ensures s == "" <==> count <= 1
    ensures count > 1 ==> |s| >= 5 && s[..3] == " (+" && s[|s| - 1] == ')' && ParseNat(s[3..|s| - 1]) == Some(count - 1)
  {
    if count > 1 then
      var digits := NatToString(count - 1);
      var s := " (+" + digits + ")";
      ParseNatToString(count - 1);
      assert s[3..|s| - 1] == digits;
      s
    else ""
  }

  /** The binding itself (everything but the container fields) */
  predicate SameBinding(a: PortRecord, b: PortRecord) {
    && a.port == b.port && a.protocol == b.protocol && a.status == b.status && a.pid == b.pid
    && a.process == b.process && a.localAddr == b.localAddr && a.remoteAddr == b.remoteAddr
  }

  /** Copies the first matched publication's container fields onto the row,
      with a count suffix when several publications share the key; a row
      with no match is returned as it came, container fields included */
  function EnrichRecord(r: PortRecord, idx: Index): (e: PortRecord)
    ensures SameBinding(e, r)
    ensures KeyOf(e) == KeyOf(r)
    ensures Lookup(idx, r) == [] ==> e == r
    ensures Lookup(idx, r) != [] ==> var m := Lookup(idx, r)[0];
      && e.dockerId == m.containerId && e.dockerImage == m.image
      && e.dockerCport == Some(m.containerPort)
      && StartsWith(e.dockerName, m.containerName)
      && e.dockerName[|m.containerName|..] == CountSuffix(|Lookup(idx, r)|)
  {
    var infos := Lookup(idx, r);
    if infos == [] then r
    else
      var m := infos[0];
      var name := m.containerName + CountSuffix(|infos|);
      assert name[..|m.containerName|] == m.containerName;
      r.(dockerName := name, dockerId := m.containerId, dockerImage := m.image,
         dockerCport := Some(m.containerPort))
  }

  /** The enriched name: the first publication's container name and the count suffix */
  lemma EnrichedName(r: PortRecord, idx: Index)
    requires Lookup(idx, r) != []
    ensures EnrichRecord(r, idx).dockerName == Lookup(idx, r)[0].containerName + CountSuffix(|Lookup(idx, r)|)
  {
  }

  /** Enriching twice with the same index changes nothing more: the name is
      reset before the suffix is added */
  lemma EnrichIdempotent(r: PortRecord, idx: Index)
    ensures EnrichRecord(EnrichRecord(r, idx), idx) == EnrichRecord(r, idx)
  {
    var e := EnrichRecord(r, idx);
    assert KeyOf(e) == KeyOf(r) && e.port == r.port && Upper(e.protocol) == Upper(r.protocol);
    assert Lookup(idx, e) == Lookup(idx, r);
  }

  /** Over an index built from a publication list, a row is matched with
      the publications on its key in publication order (the first becomes
      the primary), falling back to TCP for UDP rows */
  lemma LookupBuiltIndex(ms: seq<DockerPortInfo>, r: PortRecord)
    ensures Lookup(BuildIndex(ms), r) ==
      if WithKey(ms, KeyOf(r)) == [] && Upper(r.protocol) == "UDP"
      then WithKey(ms, Key("TCP", r.port))
      else WithKey(ms, KeyOf(r))
  {
  }

  /** `_enrich_with_docker` over a list of rows */
  function Enrich(rows: seq<PortRecord>, idx: Index): (r: seq<PortRecord>)
    ensures |r| == |rows|
    ensures forall i :: 0 <= i < |rows| ==> r[i] == EnrichRecord(rows[i], idx)
  {
    seq(|rows|, i requires 0 <= i < |rows| => EnrichRecord(rows[i], idx))
  }

  // ---------------------------------------------------------------------
  // The range view
  // ---------------------------------------------------------------------

  function Min(a: int, b: int): int { if a <= b then a else b }
  function Max(a: int, b: int): int { if a <= b then b else a }

  /** Rows carrying a container name */
  predicate HasDocker(r: PortRecord) {
    r.dockerName != ""
  }

  /** The unfiltered table: TCP rows then UDP rows, each ascending */
  function Rows(start: int, end: int, onlyUsed: bool, records: seq<PortRecord>): (rows: seq<PortRecord>)
    ensures |rows| <= 2 * Width(start, end)
    ensures !onlyUsed ==> |rows| == 2 * Width(start, end)
  {
    var used := Dedup(records);
    Sweep("TCP", start, end, used, onlyUsed) + Sweep("UDP", start, end, used, onlyUsed)
  }

  /** `_build_range_view` */
  function RangeView(rangeFrom: int, rangeTo: int, onlyUsed: bool, onlyDocker: bool,
                     records: seq<PortRecord>, idx: Index): (view: seq<PortRecord>)
    ensures onlyDocker ==> forall r :: r in view ==> HasDocker(r)
    ensures !onlyUsed && !onlyDocker ==> |view| == 2 * Width(Min(rangeFrom, rangeTo), Max(rangeFrom, rangeTo))
    ensures |view| <= 2 * Width(Min(rangeFrom, rangeTo), Max(rangeFrom, rangeTo))
  {
    var rows := Enrich(Rows(Min(rangeFrom, rangeTo), Max(rangeFrom, rangeTo), onlyUsed, records), idx);
    if onlyDocker then Filter(rows, HasDocker) else rows
  }

  /** Swapping the two range bounds gives the same table */
  lemma RangeViewSymmetric(a: int, b: int, onlyUsed: bool, onlyDocker: bool, records: seq<PortRecord>, idx: Index)
    ensures RangeView(a, b, onlyUsed, onlyDocker, records, idx) == RangeView(b, a, onlyUsed, onlyDocker, records, idx)
  {
  }

  /** The full table: TCP rows for `start..end`, then UDP rows for the same
      ports, each the enriched first binding of its key or a FREE row */
  lemma {:induction false} RangeViewLayout(rangeFrom: int, rangeTo: int, records: seq<PortRecord>, idx: Index, i: int)
    requires 0 <= i < Width(Min(rangeFrom, rangeTo), Max(rangeFrom, rangeTo))
    ensures var start := Min(rangeFrom, rangeTo);
      var n := Width(start, Max(rangeFrom, rangeTo));
      var view := RangeView(rangeFrom, rangeTo, false, false, records, idx);
      && view[i] == EnrichRecord(SlotRecord("TCP", start + i, Dedup(records)), idx)
      && view[n + i] == EnrichRecord(SlotRecord("UDP", start + i, Dedup(records)), idx)
  {
    var start, end := Min(rangeFrom, rangeTo), Max(rangeFrom, rangeTo);
    var rows := Rows(start, end, false, records);
    RowsLayout(start, end, records, i);
    assert RangeView(rangeFrom, rangeTo, false, false, records, idx) == Enrich(rows, idx);
  }

  /** Before enrichment, row `i` is TCP port `start + i` and row `n + i` is
      UDP port `start + i` */
  lemma {:induction false} RowsLayout(start: int, end: int, records: seq<PortRecord>, i: int)
    requires 0 <= i < Width(start, end)
    ensures |Rows(start, end, false, records)| == 2 * Width(start, end)
    ensures Rows(start, end, false, records)[i] == SlotRecord("TCP", start + i, Dedup(records))
    ensures Rows(start, end, false, records)[Width(start, end) + i] == SlotRecord("UDP", start + i, Dedup(records))
  {
    var used := Dedup(records);
    var tcp, udp := Sweep("TCP", start, end, used, false), Sweep("UDP", start, end, used, false);
    SweepLayout("TCP", start, end, used);
    SweepLayout("UDP", start, end, used);
    assert Rows(start, end, false, records) == tcp + udp;
  }

  /** Table order: TCP before UDP, then ascending port */
  predicate KeyBefore(a: Key, b: Key) {
    || (a.protocol == "TCP" && b.protocol == "UDP")
    || (a.protocol == b.protocol && a.port < b.port)
  }

  /** A row of protocol `p` and port `port` is filed under that key */
  lemma SlotKey(p: string, port: int, used: UsedMap)
    requires Consistent(used) && Upper(p) == p
    ensures KeyOf(SlotRecord(p, port, used)) == Key(p, port)
  {
  }

  /** One protocol's sweep is strictly ascending and stays in its range */
  lemma {:induction false} SweepOrdered(p: string, lo: int, hi: int, used: UsedMap, onlyUsed: bool)
    requires Consistent(used) && Upper(p) == p
    ensures var rows := Sweep(p, lo, hi, used, onlyUsed);
      && (forall r :: r in rows ==> KeyOf(r) == Key(p, r.port) && lo <= r.port <= hi)
      && (forall i, j :: 0 <= i < j < |rows| ==> rows[i].port < rows[j].port)
    decreases hi - lo + 1
  {
    var rows := Sweep(p, lo, hi, used, onlyUsed);
    forall r | r in rows ensures KeyOf(r) == Key(p, r.port) && lo <= r.port <= hi {
      SweepSound(p, lo, hi, used, onlyUsed, r);
      var port :| lo <= port <= hi && SlotRecord(p, port, used) == r;
      SlotKey(p, port, used);
    }
    if lo <= hi {
      SweepOrdered(p, lo, hi - 1, used, onlyUsed);
      var rest := Sweep(p, lo, hi - 1, used, onlyUsed);
      forall i, j | 0 <= i < j < |rows| ensures rows[i].port < rows[j].port {
        if j >= |rest| {
          assert rows[i] in rest;
          assert rows[j] in rows;
          assert rows[j].port == hi by {
            assert rows[j] in Slot(p, hi, used, onlyUsed);
            SlotKey(p, hi, used);
          }
        } else {
          assert rows[i] == rest[i] && rows[j] == rest[j];
        }
      }
    }
  }

  /** The unfiltered table is strictly ordered by key, every key being TCP
      or UDP with a port in range */
  lemma RowsOrdered(start: int, end: int, onlyUsed: bool, records: seq<PortRecord>)
    ensures var rows := Rows(start, end, onlyUsed, records);
      && (forall r :: r in rows ==> (KeyOf(r).protocol == "TCP" || KeyOf(r).protocol == "UDP") && start <= r.port <= end)
      && (forall i, j :: 0 <= i < j < |rows| ==> KeyBefore(KeyOf(rows[i]), KeyOf(rows[j])))
  {
    var used := Dedup(records);
    UpperProtocolNames();
    SweepOrdered("TCP", start, end, used, onlyUsed);
    SweepOrdered("UDP", start, end, used, onlyUsed);
    var t := Sweep("TCP", start, end, used, onlyUsed);
    var u := Sweep("UDP", start, end, used, onlyUsed);
    var rows := t + u;
    forall i, j | 0 <= i < j < |rows| ensures KeyBefore(KeyOf(rows[i]), KeyOf(rows[j])) {
      if j < |t| {
        assert rows[i] == t[i] && rows[j] == t[j];
      } else if i >= |t| {
        assert rows[i] == u[i - |t|] && rows[j] == u[j - |t|];
      } else {
        assert rows[i] in t && rows[j] in u;
      }
    }
  }

  /** The table's keys: TCP or UDP, port in `start..end` */
  predicate InRange(r: PortRecord, start: int, end: int) {
    (KeyOf(r).protocol == "TCP" || KeyOf(r).protocol == "UDP") && start <= r.port <= end
  }

  /** Rows strictly ordered by key */
  predicate Ordered(rows: seq<PortRecord>) {
    forall i, j :: 0 <= i < j < |rows| ==> KeyBefore(KeyOf(rows[i]), KeyOf(rows[j]))
  }

  /** Enrichment touches no key, so it keeps both facts */
  lemma EnrichKeepsOrder(rows: seq<PortRecord>, idx: Index, start: int, end: int)
    requires forall r :: r in rows ==> InRange(r, start, end)
    requires Ordered(rows)
    ensures forall r :: r in Enrich(rows, idx) ==> InRange(r, start, end)
    ensures Ordered(Enrich(rows, idx))
  {
    var enriched := Enrich(rows, idx);
    forall r | r in enriched ensures InRange(r, start, end) {
      var i :| 0 <= i < |enriched| && enriched[i] == r;
      assert rows[i] in rows;
    }
    forall i, j | 0 <= i < j < |enriched| ensures KeyBefore(KeyOf(enriched[i]), KeyOf(enriched[j])) {
      assert KeyOf(enriched[i]) == KeyOf(rows[i]) && KeyOf(enriched[j]) == KeyOf(rows[j]);
    }
  }

  /** Whatever the filters, the table is strictly ordered by (protocol,
      port), so no key is shown twice, and only TCP and UDP rows of the
      range are shown */
  lemma RangeViewOrdered(rangeFrom: int, rangeTo: int, onlyUsed: bool, onlyDocker: bool,
                         records: seq<PortRecord>, idx: Index)
    ensures var view := RangeView(rangeFrom, rangeTo, onlyUsed, onlyDocker, records, idx);
      && (forall r :: r in view ==> InRange(r, Min(rangeFrom, rangeTo), Max(rangeFrom, rangeTo)))
      && Ordered(view)
  {
    var start, end := Min(rangeFrom, rangeTo), Max(rangeFrom, rangeTo);
    var rows := Rows(start, end, onlyUsed, records);
    RowsOrdered(start, end, onlyUsed, records);
    EnrichKeepsOrder(rows, idx, start, end);
    if onlyDocker {
      var enriched := Enrich(rows, idx);
      var lt := (a: PortRecord, b: PortRecord) => KeyBefore(KeyOf(a), KeyOf(b));
      assert forall i, j :: 0 <= i < j < |enriched| ==> lt(enriched[i], enriched[j]);
      FilterOrdered(enriched, HasDocker, lt);
    }
  }

  /** Every binding of the scan whose key falls in the range is shown,
      enriched, unless "only Docker" hides it; when several bindings share a
      key, the first one scanned stands for all */
  lemma {:induction false} RangeViewShowsBindings(rangeFrom: int, rangeTo: int, onlyUsed: bool,
                               records: seq<PortRecord>, idx: Index, r: PortRecord)
    requires r in records
    requires Upper(r.protocol) == "TCP" || Upper(r.protocol) == "UDP"
    requires Min(rangeFrom, rangeTo) <= r.port <= Max(rangeFrom, rangeTo)
    ensures FirstWith(records, KeyOf(r)).Some?
    ensures EnrichRecord(FirstWith(records, KeyOf(r)).value, idx) in RangeView(rangeFrom, rangeTo, onlyUsed, false, records, idx)
  {
    var start, end := Min(rangeFrom, rangeTo), Max(rangeFrom, rangeTo);
    var used := Dedup(records);
    var k := KeyOf(r);
    DedupFirstWins(records, k);
    var first := used[k];
    var p := Upper(r.protocol);
    assert k == Key(p, r.port);
    SweepComplete(p, start, end, used, onlyUsed, r.port);
    var rows := Rows(start, end, onlyUsed, records);
    assert first in rows;
    var i :| 0 <= i < |rows| && rows[i] == first;
    assert Enrich(rows, idx)[i] == EnrichRecord(first, idx);
  }

  /** "Only Docker" keeps exactly the rows that carry a container name, in
      the order of the unfiltered table */
  lemma OnlyDockerSubsequence(rangeFrom: int, rangeTo: int, onlyUsed: bool, records: seq<PortRecord>, idx: Index)
    ensures var all := RangeView(rangeFrom, rangeTo, onlyUsed, false, records, idx);
      var shown := RangeView(rangeFrom, rangeTo, onlyUsed, true, records, idx);
      && IsSubsequence(shown, all)
      && (forall r :: r in all && HasDocker(r) ==> r in shown)
  {
    var all := RangeView(rangeFrom, rangeTo, onlyUsed, false, records, idx);
    FilterIsSubsequence(all, HasDocker);
  }
}

=== FILE: records.dfy ===
/** The two record shapes of the port monitor: a row of the port table
    (`PortRecord`) and one published container port (`DockerPortInfo`),
    with the lookup key both are indexed by. */
module Records {
  import opened Wrappers
  import opened Text

  /** One row of the port table: an OS binding, or a synthetic free port,
      plus the container fields enrichment fills in (empty by default). */
  datatype PortRecord = PortRecord(
    port: int,
    protocol: string,    // "TCP" / "UDP", or whatever a fallback parser read
    status: string,      // LISTEN, ESTABLISHED, FREE, ...
    pid: Option<int>,
    process: string,
    localAddr: string,
    remoteAddr: string,
    dockerName: string := "",
    dockerId: string := "",
    dockerImage: string := "",
    dockerCport: Option<int> := None)

  /** One host-port publication of a container port */
  datatype DockerPortInfo = DockerPortInfo(
    containerId: string,
    containerName: string,
    image: string,
    hostIp: string,
    hostPort: int,
    containerPort: int,
    protocol: string)

  /** A (protocol, port) lookup key */
  datatype Key = Key(protocol: string, port: int)

  /** The key a port row is filed and looked up under: its protocol upper-cased */
  function KeyOf(r: PortRecord): Key {
    Key(Upper(r.protocol), r.port)
  }

  /** The key a container publication is filed under; its protocol was
      upper-cased when it was parsed */
  function InfoKey(m: DockerPortInfo): Key {
    Key(m.protocol, m.hostPort)
  }

  /** `PortRecord.is_free`: the status reads FREE, ignoring case, so the
      same holds when it is compared lower-cased */
  function IsFree(r: PortRecord): (b: bool)
    ensures b ==> |r.status| == 4
    ensures b <==> Lower(r.status) == "free"
  {
    var s := r.status;
    if |s| == 4 then
      assert Upper(s) == "FREE" <==> UpperChar(s[0]) == 'F' && UpperChar(s[1]) == 'R' && UpperChar(s[2]) == 'E' && UpperChar(s[3]) == 'E';
      assert Lower(s) == "free" <==> LowerChar(s[0]) == 'f' && LowerChar(s[1]) == 'r' && LowerChar(s[2]) == 'e' && LowerChar(s[3]) == 'e';
      Upper(s) == "FREE"
    else
      assert |Lower(s)| != 4;
      Upper(s) == "FREE"
  }

  /** The placeholder row the range sweep emits for a port with no binding */
  function FreeRecord(protocol: string, port: int): (r: PortRecord)
    ensures IsFree(r)
    ensures r.pid.None? && r.process == "" && r.remoteAddr == ""
    ensures r.localAddr == "*:" + IntToString(port)
    ensures r.port == port && r.protocol == protocol
    ensures r.dockerName == "" && r.dockerId == "" && r.dockerImage == "" && r.dockerCport.None?
  {
    var r := PortRecord(port, protocol, "FREE", None, "", "*:" + IntToString(port), "");
    assert Upper(r.status) == ['F', 'R', 'E', 'E'];
    r
  }

  /** `_safe_proc_name`: no name without a (non-zero) pid; otherwise the
      looked-up name, or `"PID <n>"` when the lookup fails. `lookup` stands
      for `psutil.Process(pid).name()`, `None` for the exception it may raise
      or for psutil being absent. */
  function ProcessName(pid: Option<int>, lookup: int -> Option<string>): (s: string)
    ensures pid.None? || pid == Some(0) ==> s == ""
    ensures pid.Some? && pid.value != 0 && lookup(pid.value).Some? ==> s == lookup(pid.value).value
    ensures pid.Some? && pid.value != 0 && lookup(pid.value).None? ==> s == "PID " + IntToString(pid.value)
  {
    match pid
    case None => ""
    case Some(p) =>
      if p == 0 then ""
      else
        match lookup(p)
        case Some(name) => name
        case None => "PID " + IntToString(p)
  }

  /** When the lookup fails the placeholder name still identifies the
      process: the digits after `"PID "` read back as the pid */
  lemma ProcessNamePlaceholder(p: nat, lookup: int -> Option<string>)
    requires p > 0 && lookup(p).None?
    ensures var s := ProcessName(Some(p), lookup);
      StartsWith(s, "PID ") && ParseNat(s[4..]) == Some(p)
  {
    var s := ProcessName(Some(p), lookup);
    assert s == "PID " + NatToString(p);
    assert s[4..] == NatToString(p);
    ParseNatToString(p);
  }
}

=== FILE: scenarios.dfy ===
/** Concrete inputs the port monitor is expected to handle, each stated
    with the exact result the model gives. */
module Scenarios {
  import opened Wrappers
  import opened Text
  import opened Collections
  import opened Records
  import opened HostScan
  import opened DockerScan
  import opened Reconcile
  import opened Display

  function Sshd(): PortRecord {
    PortRecord(22, "TCP", "LISTEN", Some(100), "sshd", "0.0.0.0:22", "")
  }

  /** With no container index a row is shown exactly as scanned */
  lemma NoIndexNoChange(r: PortRecord)
    ensures EnrichRecord(r, map[]) == r
  {
    assert Entries(map[], KeyOf(r)) == [];
    assert Entries(map[], Key("TCP", r.port)) == [];
  }

  lemma SshdUsed()
    ensures Dedup([Sshd()]) == map[Key("TCP", 22) := Sshd()]
  {
    UpperProtocolNames();
    assert KeyOf(Sshd()) == Key("TCP", 22);
    assert [Sshd()][..0] == [];
  }

  lemma {:induction false} EndToEndSlot(i: int)
    requires 0 <= i < 6
    ensures var view := RangeView(20, 25, false, false, [Sshd()], map[]);
      && view[i] == SlotRecord("TCP", 20 + i, map[Key("TCP", 22) := Sshd()])
      && view[6 + i] == SlotRecord("UDP", 20 + i, map[Key("TCP", 22) := Sshd()])
  {
    RangeViewLayout(20, 25, [Sshd()], map[], i);
    SshdUsed();
    NoIndexNoChange(SlotRecord("TCP", 20 + i, Dedup([Sshd()])));
    NoIndexNoChange(SlotRecord("UDP", 20 + i, Dedup([Sshd()])));
  }

  /** sshd listening on TCP 22, no containers, range 20-25, no filters:
      twelve rows, TCP 20-25 with sshd at 22, then UDP 20-25 all FREE */
  lemma EndToEndRange()
    ensures var view := RangeView(20, 25, false, false, [Sshd()], map[]);
      && |view| == 12
      && view[2] == Sshd()
      && (forall i :: 0 <= i < 6 && i != 2 ==> view[i] == FreeRecord("TCP", 20 + i))
      && (forall i :: 6 <= i < 12 ==> view[i] == FreeRecord("UDP", i + 14))
  {
    var view := RangeView(20, 25, false, false, [Sshd()], map[]);
    forall i | 0 <= i < 6 ensures view[i] == SlotRecord("TCP", 20 + i, map[Key("TCP", 22) := Sshd()]) {
      EndToEndSlot(i);
    }
    forall i | 6 <= i < 12 ensures view[i] == FreeRecord("UDP", i + 14) {
      EndToEndSlot(i - 6);
    }
  }

  /** Entering the range backwards gives the same table */
  lemma BackwardsRange()
    ensures RangeView(25, 20, false, false, [Sshd()], map[]) == RangeView(20, 25, false, false, [Sshd()], map[])
  {
    RangeViewSymmetric(25, 20, false, false, [Sshd()], map[]);
  }

  function Nginx(): PortRecord {
    PortRecord(8080, "TCP", "LISTEN", Some(42), "docker-proxy", "0.0.0.0:8080", "")
  }

  function Web(): DockerPortInfo {
    DockerPortInfo("0123456789ab", "web", "nginx:latest", "0.0.0.0", 8080, 80, "TCP")
  }

  function Web2(): DockerPortInfo {
    DockerPortInfo("ba9876543210", "web2", "nginx:latest", "0.0.0.0", 8080, 8080, "TCP")
  }

  /** One publication on (TCP, 8080) named web: the row shows `web` without
      a count suffix and takes the container port 80 */
  lemma SingleMapping()
    ensures var e := EnrichRecord(Nginx(), BuildIndex([Web()]));
      && e.dockerName == "web" && e.dockerCport == Some(80)
      && e.dockerId == "0123456789ab" && e.dockerImage == "nginx:latest"
  {
    UpperProtocolNames();
    assert WithKey([Web()], Key("TCP", 8080)) == [Web()];
  }

  lemma Print80()
    ensures NatToString(80) == "80" && NatToString(8080) == "8080"
  {
    assert NatToString(8) == "8";
    assert NatToString(808) == "808";
  }

  lemma CollisionLookup()
    ensures Lookup(BuildIndex([Web(), Web2()]), Nginx()) == [Web(), Web2()]
  {
    UpperProtocolNames();
    LookupBuiltIndex([Web(), Web2()], Nginx());
    assert KeyOf(Nginx()) == Key("TCP", 8080);
    assert WithKey([Web(), Web2()], Key("TCP", 8080)) == [Web(), Web2()];
  }

  lemma CountTwo()
    ensures CountSuffix(2) == " (+1)"
  {
    assert NatToString(1) == "1";
  }

  /** Two publications on the same key: the first one's name with ` (+1)` */
  lemma {:induction false} MappingCollision()
    ensures EnrichRecord(Nginx(), BuildIndex([Web(), Web2()])).dockerName == "web (+1)"
  {
    var idx := BuildIndex([Web(), Web2()]);
    CollisionLookup();
    assert Lookup(idx, Nginx())[0].containerName == "web";
    NamedWithOneMore(Nginx(), idx);
  }

  /** A row matched with two publications takes the first one's name and ` (+1)` */
  lemma NamedWithOneMore(r: PortRecord, idx: Index)
    requires |Lookup(idx, r)| == 2
    ensures EnrichRecord(r, idx).dockerName == Lookup(idx, r)[0].containerName + " (+1)"
  {
    CountTwo();
    EnrichedName(r, idx);
  }

  /** A UDP row on port 53 with only a TCP publication on 53 is attributed
      to that publication */
  lemma UdpFallsBackToTcp()
    ensures var dns := DockerPortInfo("feedfacecafe", "dns", "coredns", "", 53, 53, "TCP");
      var r := PortRecord(53, "UDP", "LISTEN", Some(7), "dnsmasq", "0.0.0.0:53", "");
      EnrichRecord(r, BuildIndex([dns])).dockerName == "dns"
  {
    var dns := DockerPortInfo("feedfacecafe", "dns", "coredns", "", 53, 53, "TCP");
    var r := PortRecord(53, "UDP", "LISTEN", Some(7), "dnsmasq", "0.0.0.0:53", "");
    UpperProtocolNames();
    LookupBuiltIndex([dns], r);
    assert KeyOf(r) == Key("UDP", 53);
    assert WithKey([dns], Key("UDP", 53)) == [];
    assert WithKey([dns], Key("TCP", 53)) == [dns];
  }

  /** Two bindings on (TCP, 443): only the first scanned is shown */
  lemma FirstBindingWins()
    ensures var a := PortRecord(443, "TCP", "LISTEN", Some(1), "nginx", "0.0.0.0:443", "");
      var b := PortRecord(443, "tcp", "ESTABLISHED", Some(2), "curl", "10.0.0.2:443", "10.0.0.9:5000");
      RangeView(443, 443, true, false, [a, b], map[]) == [a]
  {
    var a := PortRecord(443, "TCP", "LISTEN", Some(1), "nginx", "0.0.0.0:443", "");
    var b := PortRecord(443, "tcp", "ESTABLISHED", Some(2), "curl", "10.0.0.2:443", "10.0.0.9:5000");
    UpperProtocolNames();
    assert Upper("tcp") == "TCP";
    assert Dedup([a, b]) == map[Key("TCP", 443) := a] by {
      assert [a, b][..1] == [a];
      assert [a][..0] == [];
    }
    assert Sweep("TCP", 443, 443, Dedup([a, b]), true) == [a];
    assert Sweep("UDP", 443, 443, Dedup([a, b]), true) == [];
    NoIndexNoChange(a);
  }

  lemma LowerTcp()
    ensures Lower("TCP") == "tcp"
  {
    var l := Lower("TCP");
    assert |l| == 3 && l[0] == 't' && l[1] == 'c' && l[2] == 'p';
  }

  lemma WebLookup()
    ensures Lookup(BuildIndex([Web()]), Nginx()) == [Web()]
  {
    UpperProtocolNames();
    LookupBuiltIndex([Web()], Nginx());
    assert KeyOf(Nginx()) == Key("TCP", 8080);
    assert WithKey([Web()], Key("TCP", 8080)) == [Web()];
  }

  lemma WebColumnPieces()
    ensures IntToString(8080) == "8080" && CportText(Some(80)) == "80"
    ensures CountSuffix(1) == "" && ImageTail("nginx:latest") == " @ nginx:latest"
  {
    Print80();
  }

  /** The Docker column of the single-publication row */
  lemma {:induction false} WebColumn()
    ensures DockerColumn(EnrichRecord(Nginx(), BuildIndex([Web()])))
      == Whale + "web (8080->80/tcp) @ nginx:latest"
  {
    WebLookup();
    EnrichedDockerColumn(Nginx(), BuildIndex([Web()]));
    var col := DockerColumn(EnrichRecord(Nginx(), BuildIndex([Web()])));
    assert col == Whale + ("web" + CountSuffix(1)) + " (" + IntToString(8080) + "->" + CportText(Some(80))
                  + "/" + Lower("TCP") + ")" + ImageTail("nginx:latest");
    WebColumnPieces();
    LowerTcp();
    WebColumnText();
  }

  lemma WebColumnText()
    ensures Whale + ("web" + "") + " (" + "8080" + "->" + "80" + "/" + "tcp" + ")" + " @ nginx:latest"
         == Whale + "web (8080->80/tcp) @ nginx:latest"
  {
  }

  lemma Print1234()
    ensures NatToString(135) == "135" && NatToString(1234) == "1234" && NatToString(5353) == "5353"
  {
    assert NatToString(13) == "13";
    assert NatToString(123) == "123";
    assert NatToString(535) == "535";
  }

  /** `TCP 0.0.0.0:135 0.0.0.0:0 LISTENING 1234`, a `netstat -ano` TCP line */
  function NetstatTcpColumns(): seq<string> {
    ["TCP", "0.0.0.0:135", "0.0.0.0:0", "LISTENING", "1234"]
  }

  lemma NetstatTcpShape()
    ensures |NetstatTcpColumns()| == 5
    ensures forall i :: 0 <= i < 5 ==> NetstatTcpColumns()[i] != [] && NoSpace(NetstatTcpColumns()[i])
    ensures StartsWith(NetstatTcpColumns()[0], "TCP") && Upper(NetstatTcpColumns()[0]) == "TCP"
  {
    var cols := NetstatTcpColumns();
    forall i | 0 <= i < 5 ensures cols[i] != [] && NoSpace(cols[i]) {
    }
    UpperProtocolNames();
  }

  lemma NetstatTcpPort()
    ensures LastPiece(NetstatTcpColumns()[1], ':') == NatToString(135)
  {
    assert NetstatTcpColumns()[1] == "0.0.0.0" + [':'] + "135";
    LastPieceAfter("0.0.0.0", ':', "135");
    Print1234();
  }

  lemma NetstatTcpPid()
    ensures ParseNat(NetstatTcpColumns()[4]) == Some(1234)
  {
    Print1234();
    ParseNatToString(1234);
  }

  /** The TCP line's state and pid are read */
  lemma {:induction false} NetstatTcpLine(lookup: int -> Option<string>)
    ensures var r := ParseNetstatLine(Join(NetstatTcpColumns(), ' '), lookup);
      && r.Some? && r.value.port == 135 && r.value.protocol == "TCP"
      && r.value.status == "LISTENING" && r.value.pid == Some(1234)
  {
    NetstatTcpShape();
    NetstatTcpPort();
    NetstatTcpPid();
    NetstatColumnsRoundTrip(NetstatTcpColumns(), 135, lookup);
  }

  /** Without psutil, one accepted netstat line is the whole scan */
  lemma OneNetstatLineWithoutPsutil(line: string, lookup: int -> Option<string>)
    requires NetstatLineAccepted(line)
    ensures ScanHost(false, None, Windows, Some([line]), lookup) == [ParseNetstatLine(line, ProcessLookup(false, lookup)).value]
  {
  }

  /** Without psutil the TCP line's process is `PID 1234`, whatever name a
      process lookup would have given */
  lemma {:induction false} NetstatTcpWithoutPsutil(lookup: int -> Option<string>)
    ensures var r := ScanHost(false, None, Windows, Some([Join(NetstatTcpColumns(), ' ')]), lookup);
      |r| == 1 && r[0].port == 135 && r[0].process == "PID 1234"
  {
    var none := ProcessLookup(false, lookup);
    NetstatTcpLine(none);
    TcpLineWithoutPsutil(Join(NetstatTcpColumns(), ' '), lookup);
  }

  lemma TcpLineWithoutPsutil(line: string, lookup: int -> Option<string>)
    requires var r := ParseNetstatLine(line, ProcessLookup(false, lookup));
      r.Some? && r.value.port == 135 && r.value.pid == Some(1234)
    ensures var r := ScanHost(false, None, Windows, Some([line]), lookup);
      |r| == 1 && r[0].port == 135 && r[0].process == "PID 1234"
  {
    var none := ProcessLookup(false, lookup);
    OneNetstatLineWithoutPsutil(line, lookup);
    var x := ParseNetstatLine(line, none).value;
    NamedByPid(x, none);
    PidText1234();
  }

  lemma NamedByPid(x: PortRecord, none: int -> Option<string>)
    requires x.pid == Some(1234) && none(1234).None?
    requires x.process == ProcessName(x.pid, none)
    ensures x.process == "PID " + IntToString(1234)
  {
  }

  lemma PidText1234()
    ensures "PID " + IntToString(1234) == "PID 1234"
  {
    Print1234();
  }

  /** `UDP 0.0.0.0:5353 *:* 4321`, a `netstat -ano` UDP line: no state
      column, so the fourth and last column is the pid */
  function NetstatUdpColumns(): seq<string> {
    ["UDP", "0.0.0.0:5353", "*:*", "4321"]
  }

  lemma {:induction false} NetstatUdpShape()
    ensures |NetstatUdpColumns()| == 4
    ensures forall i :: 0 <= i < 4 ==> NetstatUdpColumns()[i] != [] && NoSpace(NetstatUdpColumns()[i])
    ensures StartsWith(NetstatUdpColumns()[0], "UDP") && Upper(NetstatUdpColumns()[0]) == "UDP"
    ensures LastPiece(NetstatUdpColumns()[1], ':') == NatToString(5353)
  {
    NetstatUdpWords();
    UpperProtocolNames();
    NetstatUdpPort();
  }

  lemma NetstatUdpWords()
    ensures forall i :: 0 <= i < 4 ==> NetstatUdpColumns()[i] != [] && NoSpace(NetstatUdpColumns()[i])
  {
    var cols := NetstatUdpColumns();
    forall i | 0 <= i < 4 ensures cols[i] != [] && NoSpace(cols[i]) {
    }
  }

  lemma NetstatUdpPort()
    ensures LastPiece(NetstatUdpColumns()[1], ':') == NatToString(5353)
  {
    assert NetstatUdpColumns()[1] == "0.0.0.0" + [':'] + "5353";
    LastPieceAfter("0.0.0.0", ':', "5353");
    Print1234();
  }

  /** The parser reads a pid only from a fifth column, so the UDP line's
      pid is lost and no process name is looked up */
  lemma {:induction false} NetstatUdpLineLosesPid(lookup: int -> Option<string>)
    ensures var r := ParseNetstatLine(Join(NetstatUdpColumns(), ' '), lookup);
      && r.Some? && r.value.port == 5353 && r.value.protocol == "UDP"
      && r.value.status == "" && r.value.pid.None? && r.value.process == ""
  {
    NetstatUdpShape();
    NetstatColumnsRoundTrip(NetstatUdpColumns(), 5353, lookup);
    var r := ParseNetstatLine(Join(NetstatUdpColumns(), ' '), lookup);
    assert r.value.process == ProcessName(None, lookup);
  }

  /** The lsof columns of sshd listening on TCP 22, and its NAME column:
      `sshd 100 root 3u IPv4 0x1 0t0 TCP *:22 (LISTEN)` */
  function SshdLsofColumns(): seq<string> {
    ["sshd", "100", "root", "3u", "IPv4", "0x1", "0t0", "TCP"]
  }

  const SshdLsofName: string := "*:22 (LISTEN)"

  lemma SshdNamePort()
    ensures ColonNumber(SshdLsofName) == Some(22)
  {
    assert NatToString(22) == "22";
    assert SshdLsofName == "*" + ":" + NatToString(22) + " (LISTEN)";
    ColonNumberAfterHost("*", 22, " (LISTEN)");
  }

  lemma {:induction false} NoProtocolInName()
    ensures !Contains(SshdLsofName, "TCP") && !Contains(SshdLsofName, "UDP")
  {
    forall j: nat ensures !OccursAt(SshdLsofName, "TCP", j) && !OccursAt(SshdLsofName, "UDP", j) {
      if j + 3 <= |SshdLsofName| {
        var w := SshdLsofName[j..j + 3];
        assert w[0] == SshdLsofName[j] && w[1] == SshdLsofName[j + 1];
      }
    }
  }

  /** The sshd line meets the premises of `LsofNameColumnMislabels`: eight
      plain columns with TCP in NODE, and a NAME with a port but neither
      TCP nor UDP in it */
  lemma SshdLineMislabelled()
    ensures |SshdLsofColumns()| == 8
    ensures forall i :: 0 <= i < 8 ==> SshdLsofColumns()[i] != [] && NoSpace(SshdLsofColumns()[i])
    ensures Contains(SshdLsofColumns()[NodeColumn], "TCP")
    ensures !IsSpace(SshdLsofName[0]) && ColonNumber(SshdLsofName) == Some(22)
    ensures !Contains(SshdLsofName, "TCP") && !Contains(SshdLsofName, "UDP")
  {
    var cols := SshdLsofColumns();
    forall i | 0 <= i < 8 ensures cols[i] != [] && NoSpace(cols[i]) {
    }
    assert OccursAt("TCP", "TCP", 0);
    SshdNamePort();
    NoProtocolInName();
  }

  /** Any lsof line whose NODE column says TCP and whose NAME column names
      neither protocol is reported with protocol `?` by the parser as
      written, and with TCP once the protocol is read from NODE */
  lemma {:induction false} LsofNameColumnMislabels(cols: seq<string>, name: string)
    requires |cols| == 8
    requires forall i :: 0 <= i < 8 ==> cols[i] != [] && NoSpace(cols[i])
    requires name != [] && !IsSpace(name[0]) && ColonNumber(name).Some?
    requires Contains(cols[NodeColumn], "TCP")
    requires !Contains(name, "TCP") && !Contains(name, "UDP")
    ensures var w := ParseLsofLineAsWritten(Join(cols + [name], ' '));
      var c := ParseLsofLine(Join(cols + [name], ' '));
      && w.Some? && w.value.protocol == "?"
      && c.Some? && c.value.protocol == "TCP"
  {
    LsofColumnsRoundTrip(cols, name);
  }

  /** The consequence for the table: a binding whose protocol reads `?` is
      never shown, whatever the range, while the same binding read as TCP is
      shown whenever its port is in range */
  lemma {:induction false} LsofRowVisibility(cols: seq<string>, name: string, lo: int, hi: int, onlyUsed: bool)
    requires |cols| == 8
    requires forall i :: 0 <= i < 8 ==> cols[i] != [] && NoSpace(cols[i])
    requires name != [] && !IsSpace(name[0]) && ColonNumber(name).Some?
    requires Contains(cols[NodeColumn], "TCP")
    requires !Contains(name, "TCP") && !Contains(name, "UDP")
    requires lo <= ColonNumber(name).value <= hi
    ensures var w := ParseLsofLineAsWritten(Join(cols + [name], ' '));
      var c := ParseLsofLine(Join(cols + [name], ' '));
      && w.Some? && w.value !in RangeView(lo, hi, onlyUsed, false, [w.value], map[])
      && c.Some? && c.value in RangeView(lo, hi, onlyUsed, false, [c.value], map[])
  {
    LsofNameColumnMislabels(cols, name);
    LsofColumnsRoundTrip(cols, name);
    var line := Join(cols + [name], ' ');
    UnknownProtocolHidden(ParseLsofLineAsWritten(line).value, lo, hi, onlyUsed);
    TcpBindingShown(ParseLsofLine(line).value, lo, hi, onlyUsed);
  }

  lemma UnknownProtocolHidden(w: PortRecord, lo: int, hi: int, onlyUsed: bool)
    requires w.protocol == "?"
    ensures w !in RangeView(lo, hi, onlyUsed, false, [w], map[])
  {
    assert Upper("?") == "?";
    RangeViewOrdered(lo, hi, onlyUsed, false, [w], map[]);
  }

  lemma TcpBindingShown(c: PortRecord, lo: int, hi: int, onlyUsed: bool)
    requires c.protocol == "TCP" && lo <= c.port <= hi
    ensures c in RangeView(lo, hi, onlyUsed, false, [c], map[])
  {
    UpperProtocolNames();
    RangeViewShowsBindings(lo, hi, onlyUsed, [c], map[], c);
    assert FirstWith([c], KeyOf(c)) == Some(c);
    NoIndexNoChange(c);
  }

  /** A `docker ps` Ports field with an IPv4 and an IPv6 publication */
  function DockerPsClauses(): seq<Clause> {
    [Clause("0.0.0.0", 8080, 80, "tcp"), Clause("::", 8080, 80, "tcp")]
  }

  lemma DockerPsText()
    ensures PortsText(DockerPsClauses()) == "0.0.0.0:8080->80/tcp, :::8080->80/tcp"
  {
    var cs := DockerPsClauses();
    Print80();
    assert FormatClause(cs[0]) == "0.0.0.0:8080->80/tcp";
    assert FormatClause(cs[1]) == ":::8080->80/tcp";
    assert PortsText(cs[1..]) == ":::8080->80/tcp";
  }

  lemma UpperTcp()
    ensures Upper("tcp") == "TCP"
  {
    var u := Upper("tcp");
    assert |u| == 3 && u[0] == 'T' && u[1] == 'C' && u[2] == 'P';
  }

  lemma DockerPsNormalized()
    ensures NormalizedAll(DockerPsClauses()) == [Clause("0.0.0.0", 8080, 80, "TCP"), Clause("::", 8080, 80, "TCP")]
  {
    var cs := DockerPsClauses();
    UpperTcp();
    assert NormalizedAll(cs[1..]) == [Normalized(cs[1])] + NormalizedAll([]);
  }

  lemma DockerPsPrintable()
    ensures forall i :: 0 <= i < |DockerPsClauses()| ==> Printable(DockerPsClauses()[i])
  {
    var cs := DockerPsClauses();
    assert Printable(cs[0]);
    assert Printable(cs[1]);
  }

  /** Both publications are read, with the protocol upper-cased and the
      IPv6 wildcard `::` as host IP */
  lemma {:induction false} DockerPsPorts()
    ensures ParsePorts("0.0.0.0:8080->80/tcp, :::8080->80/tcp")
      == [Clause("0.0.0.0", 8080, 80, "TCP"), Clause("::", 8080, 80, "TCP")]
  {
    DockerPsText();
    DockerPsPrintable();
    PortsRoundTrip(DockerPsClauses());
    DockerPsNormalized();
  }

  /** The SDK's port key `80/tcp` */
  lemma SdkPortKey()
    ensures ParsePortKey("80/tcp") == Some((80, "TCP"))
  {
    Print80();
    assert NatToString(80) + "/" + "tcp" == "80/tcp";
    PortKeyRoundTrip(80, "tcp");
    UpperTcp();
  }
}

=== FILE: text.dfy ===
/** The handful of Python `str` operations the port scanner relies on:
    `upper`/`lower` (on ASCII letters), `strip`, `split(sep)`,
    `re.split(r"\s+", s, maxsplit)`, substring search, slicing `s[:n]`,
    `int(s)` on decimal digits and `str(n)`. */
module Text {
  import opened Wrappers

  // ---------------------------------------------------------------------
  // Character classes
  // ---------------------------------------------------------------------

  /** The characters that `\s` matches in a text pattern and `str.strip()`
      removes: those `str.isspace()` accepts, i.e. tab to carriage return,
      the four information separators, space, NEL, no-break space and the
      Unicode space separators and line / paragraph separators */
  predicate IsSpace(c: char) {
    || '\U{09}' <= c <= '\U{0D}'
    || '\U{1C}' <= c <= '\U{20}'
    || c == '\U{85}' || c == '\U{A0}' || c == '\U{1680}'
    || '\U{2000}' <= c <= '\U{200A}'
    || c == '\U{2028}' || c == '\U{2029}' || c == '\U{202F}' || c == '\U{205F}' || c == '\U{3000}'
  }

  predicate IsDigit(c: char) {
    '0' <= c <= '9'
  }

  predicate NoSpace(s: string) {
    forall i :: 0 <= i < |s| ==> !IsSpace(s[i])
  }

  predicate AllDigits(s: string) {
    forall i :: 0 <= i < |s| ==> IsDigit(s[i])
  }

  // ---------------------------------------------------------------------
  // Case mapping
  // ---------------------------------------------------------------------

  function UpperChar(c: char): char {
    if 'a' <= c <= 'z' then (c as int - 32) as char else c
  }

  function LowerChar(c: char): char {
    if 'A' <= c <= 'Z' then (c as int + 32) as char else c
  }

  /** `s.upper()` on ASCII letters */
  function Upper(s: string): (r: string)
    ensures |r| == |s|
    ensures forall i :: 0 <= i < |s| ==> r[i] == UpperChar(s[i])
  {
    seq(|s|, i requires 0 <= i < |s| => UpperChar(s[i]))
  }

  /** `s.lower()` on ASCII letters */
  function Lower(s: string): (r: string)
    ensures |r| == |s|
    ensures forall i :: 0 <= i < |s| ==> r[i] == LowerChar(s[i])
  {
    seq(|s|, i requires 0 <= i < |s| => LowerChar(s[i]))
  }

  lemma UpperIdempotent(s: string)
    ensures Upper(Upper(s)) == Upper(s)
  {
  }

  /** The two protocol names the scanner sweeps are already upper case */
  lemma UpperProtocolNames()
    ensures Upper("TCP") == "TCP" && Upper("UDP") == "UDP"
  {
    assert Upper("TCP") == ['T', 'C', 'P'];
    assert Upper("UDP") == ['U', 'D', 'P'];
  }

  // ---------------------------------------------------------------------
  // Prefixes, substrings, slices
  // ---------------------------------------------------------------------

  predicate StartsWith(s: string, prefix: string) {
    |prefix| <= |s| && s[..|prefix|] == prefix
  }

  /** `s[:n]`: the first `n` characters, or all of `s` when it is shorter */
  function Take(s: string, n: nat): (r: string)
    ensures |r| <= n
    ensures |s| <= n ==> r == s
    ensures |s| > n ==> |r| == n
    ensures r == s[..|r|]
  {
    if |s| <= n then s else s[..n]
  }

  /** `t` occurs in `s` starting at position `j` */
  predicate OccursAt(s: string, t: string, j: nat) {
    j + |t| <= |s| && s[j..j + |t|] == t
  }

  lemma StartsWithExtend(s: string, t: string, p: string)
    requires |t| <= |s| && s[..|t|] == t
    requires StartsWith(t, p)
    ensures StartsWith(s, p)
  {
    assert s[..|p|] == s[..|t|][..|p|];
  }

  /** The position of the first occurrence of `t` in `s` (`s.find(t)`) */
  function FindSub(s: string, t: string): (r: Option<nat>)
    ensures r.Some? ==> OccursAt(s, t, r.value)
    ensures r.Some? ==> forall j: nat :: j < r.value ==> !OccursAt(s, t, j)
    ensures r.None? ==> forall j: nat :: !OccursAt(s, t, j)
    decreases |s|
  {
    if |t| > |s| then None
    else if s[..|t|] == t then
      assert s[0..|t|] == s[..|t|];
      Some(0)
    else
      assert s[0..|t|] == s[..|t|];
      forall j: nat | 1 <= j
        ensures OccursAt(s, t, j) <==> OccursAt(s[1..], t, j - 1)
      {
        OccursAtShift(s, t, j);
      }
      match FindSub(s[1..], t)
      case None => None
      case Some(k) => Some(k + 1)
  }

  lemma OccursAtShift(s: string, t: string, j: nat)
    requires 1 <= j && s != []
    ensures OccursAt(s, t, j) <==> OccursAt(s[1..], t, j - 1)
  {
    if j + |t| <= |s| {
      var a := s[j..j + |t|];
      var b := s[1..][j - 1..j - 1 + |t|];
      assert |a| == |b|;
      forall k | 0 <= k < |a| ensures a[k] == b[k] {
        assert a[k] == s[j + k];
        assert b[k] == s[1..][j - 1 + k];
      }
      assert a == b;
    }
  }

  /** `t` is found right after `x` when it does not occur any earlier */
  lemma FindSubAfter(x: string, t: string, y: string)
    requires forall j: nat :: j < |x| ==> !OccursAt(x + t + y, t, j)
    ensures FindSub(x + t + y, t) == Some(|x|)
  {
    var s := x + t + y;
    assert s[|x|..|x| + |t|] == t;
    assert OccursAt(s, t, |x|);
  }

  /** Python's `t in s` for strings */
  predicate Contains(s: string, t: string) {
    FindSub(s, t).Some?
  }

  // ---------------------------------------------------------------------
  // strip()
  // ---------------------------------------------------------------------

  function TrimLeft(s: string): (r: string)
    ensures |r| <= |s| && r == s[|s| - |r|..]
    ensures r == [] || !IsSpace(r[0])
    ensures forall i :: 0 <= i < |s| - |r| ==> IsSpace(s[i])
    decreases |s|
  {
    if |s| > 0 && IsSpace(s[0]) then TrimLeft(s[1..]) else s
  }

  function TrimRight(s: string): (r: string)
    ensures |r| <= |s| && r == s[..|r|]
    ensures r == [] || !IsSpace(r[|r| - 1])
    ensures forall i :: |r| <= i < |s| ==> IsSpace(s[i])
    decreases |s|
  {
    if |s| > 0 && IsSpace(s[|s| - 1]) then TrimRight(s[..|s| - 1]) else s
  }

  /** `s.strip()`: the longest slice of `s` that neither starts nor ends
      with whitespace, everything around it being whitespace */
  function Strip(s: string): (r: string)
    ensures r == [] || (!IsSpace(r[0]) && !IsSpace(r[|r| - 1]))
  {
    TrimRight(TrimLeft(s))
  }

  /** `s.strip()` is empty exactly when `s` is all whitespace */
  lemma StripEmpty(s: string)
    ensures Strip(s) == [] <==> forall i :: 0 <= i < |s| ==> IsSpace(s[i])
  {
    var l := TrimLeft(s);
    var t := TrimRight(l);
    if t == [] {
      assert |l| == 0;
    } else {
      assert t[0] == l[0] == s[|s| - |l|];
    }
  }

  /** A string that neither starts nor ends with whitespace is its own strip */
  lemma StripNoEdgeSpace(s: string)
    requires s == [] || (!IsSpace(s[0]) && !IsSpace(s[|s| - 1]))
    ensures Strip(s) == s
  {
  }

  /** Leading blanks in front of an already stripped text are stripped away */
  lemma StripPadded(pad: string, s: string)
    requires forall i :: 0 <= i < |pad| ==> IsSpace(pad[i])
    requires s != [] && !IsSpace(s[0]) && !IsSpace(s[|s| - 1])
    ensures Strip(pad + s) == s
  {
    var t := pad + s;
    var l := TrimLeft(t);
    assert l == t[|pad|..] == s;
    StripNoEdgeSpace(s);
    assert TrimLeft(s) == s;
  }

  // ---------------------------------------------------------------------
  // split(sep)
  // ---------------------------------------------------------------------

  /** `s.split(c)` for a one-character separator: the pieces between the
      occurrences of `c`, always at least one (`"".split(",") == [""]`) */
  function SplitOn(s: string, c: char): (r: seq<string>)
    ensures |r| >= 1
    decreases |s|
  {
    if s == [] then [""]
    else if s[0] == c then [""] + SplitOn(s[1..], c)
    else
      var t := SplitOn(s[1..], c);
      [[s[0]] + t[0]] + t[1..]
  }

  /** `Join(parts, c)` is `c.join(parts)` */
  function Join(parts: seq<string>, c: char): string
    requires |parts| >= 1
    decreases |parts|
  {
    if |parts| == 1 then parts[0] else parts[0] + [c] + Join(parts[1..], c)
  }

  /** A string without the separator is one piece */
  lemma {:induction false} SplitOnNoSep(s: string, c: char)
    requires c !in s
    ensures SplitOn(s, c) == [s]
    decreases |s|
  {
    if s != [] {
      SplitOnNoSep(s[1..], c);
      assert s == [s[0]] + s[1..];
    }
  }

  /** Splitting at one occurrence of the separator splits the two sides
      independently */
  lemma {:induction false} SplitOnAppend(x: string, c: char, y: string)
    ensures SplitOn(x + [c] + y, c) == SplitOn(x, c) + SplitOn(y, c)
    decreases |x|
  {
    var s := x + [c] + y;
    if x == [] {
      assert s == [c] + y;
      assert s[1..] == y;
    } else {
      assert s[1..] == x[1..] + [c] + y;
      SplitOnAppend(x[1..], c, y);
      SplitOnCons(s, x, SplitOn(y, c), c);
    }
  }

  /** One step of `SplitOnAppend`: `s` and `x` start alike, and the rest of
      `s` splits into the rest of `x`'s pieces followed by `b` */
  lemma SplitOnCons(s: string, x: string, b: seq<string>, c: char)
    requires s != [] && x != [] && s[0] == x[0]
    requires SplitOn(s[1..], c) == SplitOn(x[1..], c) + b
    ensures SplitOn(s, c) == SplitOn(x, c) + b
  {
    var a := SplitOn(x[1..], c);
    var t := SplitOn(s[1..], c);
    if x[0] != c {
      assert t[0] == a[0];
      assert t[1..] == a[1..] + b;
    }
  }

  /** `split(c)` undoes `c.join(...)`: joining pieces free of the separator
      then splitting gives back the pieces */
  lemma {:induction false} SplitJoin(parts: seq<string>, c: char)
    requires |parts| >= 1
    requires forall i :: 0 <= i < |parts| ==> c !in parts[i]
    ensures SplitOn(Join(parts, c), c) == parts
    decreases |parts|
  {
    if |parts| == 1 {
      SplitOnNoSep(parts[0], c);
    } else {
      SplitJoin(parts[1..], c);
      SplitOnAppend(parts[0], c, Join(parts[1..], c));
      SplitOnNoSep(parts[0], c);
      assert parts == [parts[0]] + parts[1..];
    }
  }

  /** The text after the last `c`, or all of `s` when there is none
      (`s.rsplit(c, 1)[-1]`) */
  function LastPiece(s: string, c: char): (r: string)
    ensures c !in r
    ensures |r| <= |s| && r == s[|s| - |r|..]
    ensures c !in s ==> r == s
    ensures c in s ==> |r| < |s| && s[|s| - |r| - 1] == c
    decreases |s|
  {
    if s == [] then []
    else if s[|s| - 1] == c then []
    else
      var init := s[..|s| - 1];
      assert c in s ==> c in init by {
        if c in s {
          var k :| 0 <= k < |s| && s[k] == c;
          assert init[k] == c;
        }
      }
      assert s == init + [s[|s| - 1]];
      LastPiece(init, c) + [s[|s| - 1]]
  }

  /** `s.rsplit(c, 1)[0]` when `c` occurs in `s`: the text before the last `c` */
  function BeforeLast(s: string, c: char): (r: string)
    requires c in s
    ensures s == r + [c] + LastPiece(s, c)
  {
    var tail := LastPiece(s, c);
    assert s == s[..|s| - |tail| - 1] + [c] + tail;
    s[..|s| - |tail| - 1]
  }

  /** `s.split(c)[-1]` and `s.rsplit(c, 1)[-1]` are the same piece */
  lemma SplitOnLast(s: string, c: char)
    ensures SplitOn(s, c)[|SplitOn(s, c)| - 1] == LastPiece(s, c)
  {
    if c in s {
      var tail := LastPiece(s, c);
      SplitOnAppend(BeforeLast(s, c), c, tail);
      SplitOnNoSep(tail, c);
    } else {
      SplitOnNoSep(s, c);
    }
  }

  lemma {:induction false} LastPieceAfter(x: string, c: char, y: string)
    requires c !in y
    ensures LastPiece(x + [c] + y, c) == y
  {
    SplitOnLast(x + [c] + y, c);
    SplitOnAppend(x, c, y);
    SplitOnNoSep(y, c);
  }

  // ---------------------------------------------------------------------
  // re.split(r"\s+", s, maxsplit)
  // ---------------------------------------------------------------------

  /** The length of the longest prefix of `s` without whitespace */
  function SpanNonSpace(s: string): (n: nat)
    ensures n <= |s| && NoSpace(s[..n])
    ensures n < |s| ==> IsSpace(s[n])
    decreases |s|
  {
    if s == [] || IsSpace(s[0]) then 0 else 1 + SpanNonSpace(s[1..])
  }

  /** The length of the longest all-whitespace prefix of `s` */
  function SpanSpace(s: string): (n: nat)
    ensures n <= |s|
    ensures forall i :: 0 <= i < n ==> IsSpace(s[i])
    ensures n < |s| ==> !IsSpace(s[n])
    decreases |s|
  {
    if s != [] && IsSpace(s[0]) then 1 + SpanSpace(s[1..]) else 0
  }

  /** One split fewer, for the recursive call of `SplitWs` */
  function Fewer(limit: Option<nat>): Option<nat> {
    match limit
    case None => None
    case Some(n) => if n == 0 then Some(0) else Some(n - 1)
  }

  /** `re.split(r"\s+", s, maxsplit)`: cut `s` at each maximal run of
      whitespace, from the left, at most `limit` times (`None` = no limit);
      the last piece is the untouched rest of the string. */
  function SplitWs(s: string, limit: Option<nat>): (r: seq<string>)
    ensures |r| >= 1
    ensures limit.Some? ==> |r| <= limit.value + 1
    ensures forall i :: 0 <= i < |r| - 1 ==> NoSpace(r[i])
    ensures limit.None? ==> NoSpace(r[|r| - 1])
    decreases |s|
  {
    var i := SpanNonSpace(s);
    if i == |s| then
      assert s[..i] == s;
      [s]
    else if limit == Some(0) then
      [s]
    else
      var rest := s[i..];
      var j := SpanSpace(rest);
      [s[..i]] + SplitWs(rest[j..], Fewer(limit))
  }

  lemma {:induction false} SpanNonSpaceField(f: string, t: string)
    requires NoSpace(f)
    requires t == [] || IsSpace(t[0])
    ensures SpanNonSpace(f + t) == |f|
    decreases |f|
  {
    if f != [] {
      assert (f + t)[1..] == f[1..] + t;
      SpanNonSpaceField(f[1..], t);
    }
  }

  lemma {:induction false} SpanSpaceRun(sep: string, t: string)
    requires forall i :: 0 <= i < |sep| ==> IsSpace(sep[i])
    requires t == [] || !IsSpace(t[0])
    ensures SpanSpace(sep + t) == |sep|
    decreases |sep|
  {
    if sep != [] {
      assert (sep + t)[1..] == sep[1..] + t;
      SpanSpaceRun(sep[1..], t);
    }
  }

  /** A field, a run of whitespace and a rest that starts with a non-space:
      one split peels off exactly the field */
  lemma {:induction false} SplitWsField(f: string, sep: string, rest: string, limit: Option<nat>)
    requires NoSpace(f)
    requires sep != [] && forall i :: 0 <= i < |sep| ==> IsSpace(sep[i])
    requires rest == [] || !IsSpace(rest[0])
    requires limit != Some(0)
    ensures SplitWs(f + sep + rest, limit) == [f] + SplitWs(rest, Fewer(limit))
  {
    var s := f + sep + rest;
    assert s == f + (sep + rest);
    SpanNonSpaceField(f, sep + rest);
    assert s[|f|..] == sep + rest;
    SpanSpaceRun(sep, rest);
    assert (sep + rest)[|sep|..] == rest;
    assert s[..|f|] == f;
  }

  /** Once the split limit is used up the rest is one piece */
  lemma SplitWsExhausted(s: string)
    ensures SplitWs(s, Some(0)) == [s]
  {
  }

  /** A whitespace-free string is a single field */
  lemma SplitWsSingle(f: string, limit: Option<nat>)
    requires NoSpace(f)
    ensures SplitWs(f, limit) == [f]
  {
    SpanNonSpaceField(f, []);
    assert f + [] == f;
  }

  lemma JoinHead(parts: seq<string>, c: char)
    requires |parts| >= 1 && parts[0] != []
    ensures Join(parts, c) != [] && Join(parts, c)[0] == parts[0][0]
  {
  }

  lemma JoinPrefix(parts: seq<string>, c: char)
    requires |parts| >= 1
    ensures |parts[0]| <= |Join(parts, c)| && Join(parts, c)[..|parts[0]|] == parts[0]
  {
  }

  lemma {:induction false} JoinLast(parts: seq<string>, c: char)
    requires |parts| >= 1 && parts[|parts| - 1] != []
    ensures var s := Join(parts, c); var l := parts[|parts| - 1];
      s != [] && s[|s| - 1] == l[|l| - 1]
    decreases |parts|
  {
    if |parts| > 1 {
      JoinLast(parts[1..], c);
    }
  }

  /** Columns without whitespace, joined by single spaces, split back into
      the same columns */
  lemma {:induction false} SplitWsJoin(parts: seq<string>)
    requires |parts| >= 1
    requires forall i :: 0 <= i < |parts| ==> parts[i] != [] && NoSpace(parts[i])
    ensures SplitWs(Join(parts, ' '), None) == parts
    decreases |parts|
  {
    if |parts| == 1 {
      SplitWsSingle(parts[0], None);
    } else {
      var rest := Join(parts[1..], ' ');
      JoinHead(parts[1..], ' ');
      SplitWsField(parts[0], " ", rest, None);
      assert Join(parts, ' ') == parts[0] + " " + rest;
      SplitWsJoin(parts[1..]);
      assert parts == [parts[0]] + parts[1..];
    }
  }

  /** With a split limit of `k`, the first `k` whitespace-free columns come
      back one by one and the last piece is the untouched rest */
  lemma {:induction false} SplitWsJoinLimited(parts: seq<string>, k: nat)
    requires |parts| == k + 1
    requires forall i :: 0 <= i < k ==> parts[i] != [] && NoSpace(parts[i])
    requires parts[k] == [] || !IsSpace(parts[k][0])
    ensures SplitWs(Join(parts, ' '), Some(k)) == parts
    decreases k
  {
    if k == 0 {
      assert Join(parts, ' ') == parts[0];
      SplitWsExhausted(parts[0]);
    } else {
      var tail := parts[1..];
      var rest := Join(tail, ' ');
      assert rest == [] || !IsSpace(rest[0]) by {
        if k >= 2 {
          JoinHead(tail, ' ');
        } else {
          assert rest == parts[1];
        }
      }
      SplitWsField(parts[0], " ", rest, Some(k));
      assert Fewer(Some(k)) == Some(k - 1);
      assert Join(parts, ' ') == parts[0] + " " + rest;
      SplitWsJoinLimited(tail, k - 1);
      assert parts == [parts[0]] + tail;
    }
  }

  // ---------------------------------------------------------------------
  // int(s) and str(n)
  // ---------------------------------------------------------------------

  function DigitValue(c: char): nat
    requires IsDigit(c)
  {
    c as int - '0' as int
  }

  function DigitChar(d: nat): (c: char)
    requires d < 10
    ensures IsDigit(c) && DigitValue(c) == d
  {
    ('0' as int + d) as char
  }

  /** The decimal value of a string of digits, most significant first */
  function DigitsValue(s: string): nat
    requires AllDigits(s)
    decreases |s|
  {
    if s == [] then 0 else DigitsValue(s[..|s| - 1]) * 10 + DigitValue(s[|s| - 1])
  }

  /** `int(s)` where it succeeds on a non-empty string of decimal digits;
      `None` stands for the `ValueError` the source catches */
  function ParseNat(s: string): (r: Option<nat>)
    ensures r.Some? <==> s != [] && AllDigits(s)
  {
    if s != [] && AllDigits(s) then Some(DigitsValue(s)) else None
  }

  /** `str(n)` for a natural number: its decimal digits, no leading zero */
  function NatToString(n: nat): (s: string)
    ensures s != [] && AllDigits(s)
    ensures |s| > 1 ==> s[0] != '0'
    decreases n
  {
    if n < 10 then [DigitChar(n)] else NatToString(n / 10) + [DigitChar(n % 10)]
  }

  /** `str(i)` for any integer */
  function IntToString(i: int): (s: string)
    ensures s != []
  {
    if i < 0 then "-" + NatToString(-i) else NatToString(i)
  }

  /** Printing a number and parsing it back gives the number */
  lemma {:induction false} ParseNatToString(n: nat)
    ensures ParseNat(NatToString(n)) == Some(n)
    decreases n
  {
    var s := NatToString(n);
    if n >= 10 {
      ParseNatToString(n / 10);
      assert s[..|s| - 1] == NatToString(n / 10);
    } else {
      assert s == [DigitChar(n)];
      assert s[..|s| - 1] == [];
      assert DigitsValue(s) == DigitsValue([]) * 10 + DigitValue(s[0]);
    }
  }

  lemma NatToStringNoSpace(n: nat)
    ensures NoSpace(NatToString(n))
    ensures ':' !in NatToString(n) && '/' !in NatToString(n) && ',' !in NatToString(n)
  {
    var s := NatToString(n);
    assert forall i :: 0 <= i < |s| ==> IsDigit(s[i]);
  }
}

=== FILE: wrappers.dfy ===
/** The optional value the model uses wherever the source returns `None`
    or swallows an exception and carries on without a value. */
module Wrappers {

  datatype Option<+T> = None | Some(value: T)
}
